=== FILE: README.md ===
# Search pipeline core, modelled in Dafny

This project models the algorithmic core of a small web-search pipeline:

- **Crawler.** Per-domain politeness comes first: robots-file parsing, prefix-based `allowed`, and the crawl-delay wait. Then come the fetch gate, link extraction and the frontier/visited worker loop.
- **Deduplicator.** A greedy streaming filter that drops a document when its MinHash signature collides with that of a document already kept.
- **Inverted index.** Positional postings, per-term document frequency, per-document statistics, the document table and the document counter.
- **Ranking.** BM25 and the hybrid ranker that mixes BM25 with a semantic score.
- **Search endpoint.** It tokenises the query, applies the site filter, scores, reverse-sorts `(score, doc_id)` pairs, truncates to `topK`, and builds snippets and highlights.

Modules, one per file:

| file | module | models |
|---|---|---|
| `wrappers.dfy` | `Wrappers` | `Option` and `Result` |
| `text.dfy` | `Text` | the Python string operations used: `isspace`, `lower`, `split()`, `strip()`, `startswith`/`endswith`, substring `in`, `replace(p, '')`, `splitlines()`, `list.count`, `' '.join` |
| `indexer.dfy` | `Indexer` | `src/indexer.py`: `InvertedIndex.__init__`, `add_document`, and `Indexer.build`'s doc-id derivation |
| `robots.dfy` | `Robots` | `src/crawler.py`: `RobotsTxt` (`_parse`, `allowed`, `wait`) |
| `crawler.dfy` | `Crawler` | `src/crawler.py`: `Crawler.fetch`, `crawl`, `extract_links` |
| `dedupe.dfy` | `Dedupe` | `src/dedupe.py`: `Deduplicator.dedupe` |
| `ranker.dfy` | `Ranker` | `src/ranker.py`: `BM25`, `HybridRanker` |
| `search.dfy` | `Search` | `src/api.py`: `SearchRequest`, `search` |

## Modelling choices

Everything outside the core enters as a parameter:

- **Clock.** `wait` takes the clock reading before the sleep (`now`) and after it (`resumed`).
- **Network.**
  - The robots download is the text it produced, or `None`.
  - A page fetch is an `Option<Response>`.
  - In `Crawl`, `fetch(k, url)` is the page the `k`-th fetch returns.
- **Libraries.**
  - HTML anchor extraction (`hrefsOf`) and `urljoin` (`join`) are functions passed in.
  - The MinHash signature is a function `signature` of the token *set*, so token order and repetition cannot affect it.
  - LSH similarity is a relation `collides` between two signatures. A query returns the keys of the inserted entries that collide with the query signature.
  - `math.log` is a parameter `ln`, constrained by `Ranker.IsLog`: `ln(1) = 0` and strictly increasing on positive reals. `Ranker.LogExists` shows the constraint can be met.
- **Directory listings.** `os.listdir` enumeration is a sequence of `(file name, parsed document)` pairs, in the order given.
- **Scorers.** `Search.Search` takes the two rankers' `score` methods as functions that return a `Result`; a `Failure` stands for an exception that ends the request. With `useSemantic == false` the BM25 scorer stands for `Ranker.Score` on the loaded index; `Search.Bm25RequestFails` states what that choice gives.

Errors the source raises are modelled as values:

- `score` on an unknown id or with `avgdl == 0` gives `Ranker.ScoreError`.
- A `crawl-delay:` line without digits gives an incomplete `Robots.Parsed`.
- A repeated LSH key gives the `crash` index of `Dedupe.Dedupe`.

Behaviour that is easy to misread:

- **Ties in the result order.** They are not arbitrary: the pairs are reverse-sorted as tuples, so equal scores are ordered by doc id, descending.
- **Zero `avgdl`.** Guarding against an empty index is not enough. `avgdl` is also zero when every stored document has no tokens. A non-empty query then divides by zero.
- **The crawl delay.** It is not the integer after `crawl-delay:`. It is the first run of decimal digits anywhere on the line, so `Crawl-Delay: 1.5` gives 1 and `Crawl-Delay: 0x10` gives 0. A line with no digits ends the parse and keeps the rules and the delay read so far.
- **The `limit` check.** It happens only at the top of the worker loop. The model claims `|visited| <= limit` for a single worker only.
- **The robots download.** It calls `asyncio.run` from inside the crawler's running event loop. That error is swallowed, so a live crawl always ends up with the fresh policy: delay 1, no rules. `Crawler.NewPolicy` covers both outcomes.

Behaviour the model makes explicit:

- **Colliding doc ids.** `fname.replace('.json', '')` removes every `.json`, so `a.json` and `a.json.json` both get doc id `a`.
  - The indexer then counts two documents but keeps one (`Indexer.DocIdCollision`).
  - The deduplicator inserts LSH keys with the same derivation. It raises when a second file with the same key is about to be kept (`Dedupe.Dedupe`'s `crash`).
- **Politeness per scheme.** The robots registry is keyed by `scheme://netloc`, and each robots object keeps its own access times. So `http://h` and `https://h` have separate policies and separate clocks: on its first fetch `http://h` does not wait for an access to `https://h` that just happened (`Crawler.SchemesWaitApart`). The wait keys its access times by network location, but within one robots object that location is always the same.

## Model

| member | source | states |
|---|---|---|
| Text.SplitJoin | src/api.py:39 | `split()` on words joined by single spaces gives the words back |
| Text.Lower | src/api.py:39 | lower-casing keeps the length, maps each character on its own, yields lower-case text and leaves lower-case text unchanged |
| Text.Split | src/api.py:39 | `split()` yields non-empty, whitespace-free words made of characters of the text |
| Text.LowerJoin | src/api.py:39 | lower-casing text made of lower-case words and spaces changes nothing |
| Text.Strip | src/crawler.py:36 | `strip()` returns the piece of its input left after removing the whitespace runs at both ends: everything before and after it is whitespace and it neither starts nor ends with whitespace |
| Text.AfterFirst | src/crawler.py:36 | `split(':', 1)[1]` is the text right after the first occurrence of the separator, which does not occur earlier |
| Text.SplitLines | src/crawler.py:32 | `splitlines()` yields lines without line breaks |
| Text.SplitLinesJoin | src/crawler.py:32 | `splitlines()` of newline-terminated lines without breaks returns those lines |
| Text.SplitLinesStep | src/crawler.py:32 | a line followed by one boundary (`\n`, `\r`, `\r\n`, `\v`, `\f`, `\x1c`–`\x1e`, `\x85`, `\u2028` or `\u2029`) is split off as the first line, unless a lone `\r` is followed by `\n` |
| Text.SplitLinesJoinWith | src/crawler.py:32 | `splitlines()` gives the lines back whatever boundaries separate them, with or without a break after the last line; an empty last line needs its break, and a `\r` boundary is not followed by an empty line ended by `\n` |
| Text.CrLfExample | src/crawler.py:32 | `\r\n` is one boundary and an unterminated last line is kept: `"a\r\nb"` splits into `a` and `b` |
| Text.SplitSpreadIff | src/api.py:39 | `split()` returns the words `ws` exactly when the text is `ws` with whitespace runs before, between and after them, the inner runs non-empty |
| Text.SplitSpread | src/api.py:39 | words with whitespace runs around them, the inner runs non-empty, split back to those words |
| Text.PadsOf | src/api.py:39 | every text is its `split()` words with whitespace runs around them, the inner runs non-empty |
| Text.RemoveAll | src/indexer.py:61 | `replace(p, '')` never lengthens the text; it returns the text unchanged exactly when `p` is empty or does not occur, and otherwise shortens it |
| Text.RemoveSuffix | src/indexer.py:61 | `replace('.json', '')` on `w + '.json'` gives `w` back when `w` cannot start an occurrence |
| Text.CountZero | src/ranker.py:23 | `tokens.count(t)` is zero exactly when `t` does not occur |
| Text.CountAppend | src/ranker.py:23 | occurrence counts add up over concatenation |
| Indexer.EmptyValid | src/indexer.py:8-13 | a fresh index satisfies the index invariant (df equals posting-list length, stats match the table, postings name stored documents, table size at most `N`) |
| Indexer.Positions | src/indexer.py:23-25 | a term's position list holds exactly the indices where the term occurs, strictly increasing |
| Indexer.PositionsCount | src/indexer.py:23-25 | a position list is as long as the term's occurrence count |
| Indexer.PositionsPartition | src/indexer.py:23-25 | a token index is in term `t`'s list exactly when the token there is `t`, so the lists partition the indices |
| Indexer.GroupPositions | src/indexer.py:23-25 | the enumeration loop builds one key per distinct token, mapped to that token's position list |
| Indexer.AddDocument | src/indexer.py:15-29 | `N` grows by one even for a known id; stats and table entry for the id are set (overwriting); each distinct token's posting list gets one entry appended at the end and its df grows by one; other terms and ids are unchanged |
| Indexer.AddDocumentFreqs | src/indexer.py:26-28 | after an addition each term's df still equals its posting-list length |
| Indexer.AddDocumentPostingIds | src/indexer.py:22-27 | every posting after an addition names a document in the table |
| Indexer.AddDocumentValid | src/indexer.py:15-29 | adding a document preserves the index invariant |
| Indexer.BuildValid | src/indexer.py:56-62 | an index built by successive additions satisfies the invariant and counts every addition |
| Indexer.BuildPostings | src/indexer.py:26-28 | a built index's posting lists are in insertion order, one posting per document containing the term, and df is their number |
| Indexer.BuildDocFreqBound | src/indexer.py:26-29 | in a built index no term's df exceeds `N` |
| Indexer.BuildKeys | src/indexer.py:17-22 | the table and the stats of a built index hold exactly the ids added |
| Indexer.BuildLastWins | src/indexer.py:17-22 | for each id the table and stats hold the last document added under it |
| Indexer.BuildDistinctCount | src/indexer.py:56-62 | with pairwise distinct doc ids, `N`, the table size and the stats size are all the number of documents |
| Indexer.JsonEntries | src/indexer.py:56-61 | an entry is indexed exactly for each `.json` file, under its name with `.json` removed, with its document |
| Indexer.JsonIndicesExact | src/indexer.py:57-58 | the files that pass the `.json` test are exactly those whose names end in `.json`, each taken once, in listing order |
| Indexer.JsonEntriesOrder | src/indexer.py:57-62 | one entry per `.json` file, in listing order: the `k`-th entry is made from the `k`-th `.json` file |
| Indexer.StemDocId | src/indexer.py:58-61 | `w.json` with a dot-free stem `w` is indexed under `w` |
| Indexer.IndexerBuild | src/indexer.py:56-62 | `Indexer.build` yields a valid index whose document count is the number of `.json` files in the listing and whose table holds exactly their doc ids |
| Indexer.DocIdCollision | src/indexer.py:61 | files `a.json` and `a.json.json` get the same doc id: `N` is 2 while the table holds 1 document |
| Robots.FreshPolicy | src/crawler.py:11-15 | a new policy has crawl delay 1, no rules and no access times, and allows every path |
| Robots.FirstNumber | src/crawler.py:34 | the delay value is absent exactly when the line contains no decimal digit; otherwise it is the value of the first maximal run of digits |
| Robots.FirstRunUnique | src/crawler.py:34 | the first maximal digit run is unique, so the value is determined |
| Robots.AddRule | src/crawler.py:37 | storing a rule as a dictionary key adds it once, keeps the earlier rules in their order, and adds nothing else |
| Robots.Parse | src/crawler.py:31-37 | parsing a robots file never touches access times; it stops early exactly when some line is a `crawl-delay:` line without digits; a complete parse takes the delay of the last `crawl-delay:` line and adds every `disallow:` path to the rules |
| Robots.ParseLines | src/crawler.py:31-37 | parsing never touches access times, keeps the earlier rules as a prefix and never stores a rule twice |
| Robots.ParseAppend | src/crawler.py:32-37 | parsing lines `a + b` is parsing `a`, then `b` from the result unless `a` raised |
| Robots.ParseAbortsIff | src/crawler.py:33-34 | the parse ends early exactly when some `crawl-delay:` line has no digits |
| Robots.ParseDelay | src/crawler.py:33-34 | after a complete parse the delay is the number on the last `crawl-delay:` line, or the earlier delay when there is none |
| Robots.ParseRules | src/crawler.py:35-37 | after a complete parse the rules are the earlier rules plus the stripped, case-preserved path of every `disallow:` line, whatever user-agent lines say |
| Robots.Allowed | src/crawler.py:39-44 | the scan answers false exactly when some stored rule is a prefix of the path |
| Robots.EmptyDisallowBlocksAll | src/crawler.py:35-44 | an empty `Disallow:` line blocks every path |
| Robots.FractionalDelayTruncates | src/crawler.py:34 | `Crawl-Delay: 1.5` sets the delay to 1 |
| Robots.WaitTime | src/crawler.py:49-50 | the sleep is never negative, is zero exactly when a full delay has passed since the last access (time 0 when none), and otherwise ends exactly one delay after that access |
| Robots.Wait | src/crawler.py:46-53 | a wait records the post-sleep time for its location and changes nothing else |
| Robots.ConsecutiveWaits | src/crawler.py:46-53 | two consecutive waits for one location record access times at least one crawl delay apart |
| Crawler.NewPolicy | src/crawler.py:11-29 | without a robots file the policy is the fresh one; either way no access time is recorded |
| Crawler.Accept | src/crawler.py:74-79 | a page is returned exactly for a 200 response whose content type contains `text/html`, and it is the response text |
| Crawler.FetchPage | src/crawler.py:64-79 | a known domain keeps its policy and a new one gets the policy read from its robots text, while other domains keep theirs; a disallowed path returns nothing and sleeps 0; an allowed one sleeps the wait time of that policy, records the access (leaving the other locations' access times alone) and returns the accepted page |
| Crawler.RobotsReadOnce | src/crawler.py:66-67 | the robots file of a domain already in the registry is not consulted again |
| Crawler.ConsecutiveFetches | src/crawler.py:64-70 | two allowed fetches from one location start at least a crawl delay apart |
| Crawler.SchemesWaitApart | src/crawler.py:46-67 | `http://h` on its first fetch does not wait for a just-recorded access to `https://h`, whose policy is left as it was |
| Crawler.ExtractLinks | src/crawler.py:111-120 | a link is extracted exactly when some href starts with `http` (kept verbatim), or starts with `/` and resolves to it |
| Crawler.Step | src/crawler.py:86-96 | a worker step removes the popped URL and no other; a failed fetch or an already visited URL leaves `visited` as it was and only removes that URL; a fetched page joins `visited` and each of its links not visited is queued |
| Crawler.StepInvariant | src/crawler.py:85-96 | a step keeps pending and visited disjoint, never shrinks `visited`, never re-queues a visited URL, grows `visited` by one exactly on a fetched page and otherwise shrinks `pending` |
| Crawler.StepCovered | src/crawler.py:94-96 | every URL ever held was a seed or an extracted link |
| Crawler.Crawl | src/crawler.py:81-97 | a single-worker crawl terminates with disjoint sets, at most `limit` visited URLs and nothing fetched when `limit <= 0`. Its trace records each fetch's URL, the page that fetch returned and that page's extracted links; the final state is the seeds run through the worker steps of the trace; `discovered` is the union of the links; `visited` is exactly the URLs whose fetch returned a page. It stops normally only when the frontier is empty or the limit is reached. An error comes from the next fetch of a waiting URL, below the limit, and pops only that URL |
| Crawler.CrawlStep | src/crawler.py:86-96 | one successful fetch keeps the loop invariant and either grows `visited` or shrinks the frontier |
| Crawler.ReplayVisited | src/crawler.py:89-93 | after a sequence of worker steps, `visited` holds exactly the URLs whose fetch returned a page |
| Dedupe.Query | src/dedupe.py:25 | the LSH query comes back empty exactly when no inserted signature collides with the query signature |
| Dedupe.Dedupe | src/dedupe.py:15-28 | the output is the documents at increasing listing indices, unchanged; a file is kept exactly when it ends in `.json` and collides with no kept file before it; a key collision with a kept file stops the pass there; kept keys are distinct |
| Dedupe.Visit | src/dedupe.py:17-28 | one file of the pass: a skip or a keep extends the greedy prefix by that file; a raise happens only for a file the greedy rule would keep whose key a kept file already has, and leaves the output as it was |
| Dedupe.QueryDecides | src/dedupe.py:25-26 | against an index holding only the kept files' signatures, an empty query is exactly the greedy keep decision |
| Dedupe.KeepPreserved | src/dedupe.py:25-28 | keeping a later file never changes an earlier decision |
| Dedupe.FirstConsideredKept | src/dedupe.py:12-26 | the first `.json` file is always kept |
| Dedupe.KeptDoNotCollide | src/dedupe.py:25-26 | no kept file collides with a kept file before it |
| Dedupe.DroppedHasKeptWitness | src/dedupe.py:25-28 | a dropped `.json` file collides with a kept file before it, since only kept files are inserted |
| Dedupe.GreedyUnique | src/dedupe.py:15-28 | the greedy decisions fix the kept indices: two outcomes over the same listing agree |
| Ranker.TotalLengthRemove | src/ranker.py:11 | the length sum does not depend on the order the statistics are visited |
| Ranker.NewBM25 | src/ranker.py:7-12 | the scorer keeps the index, parameters and `N`, and its `avgdl` is non-negative and zero exactly when every document has zero tokens |
| Ranker.AvgDl | src/ranker.py:11 | `avgdl` is never negative and is zero exactly when every document (possibly none) has zero tokens |
| Ranker.IdfSign | src/ranker.py:14-16 | `idf`, with df 0 for unseen terms, is positive exactly when `df <= N` and is never zero |
| Ranker.BuiltIdfPositive | src/ranker.py:14-16 | over an index built by additions every term has positive `idf` |
| Ranker.DefaultNormPositive | src/ranker.py:25 | with `k1 = 1.5`, `b = 0.75` and positive `avgdl`, the length normalisation is positive |
| Ranker.TermWeight | src/ranker.py:25-26 | an absent term and a zero denominator contribute 0 |
| Ranker.TermWeightMonotone | src/ranker.py:25-26 | with positive normalisation a term's contribution is non-negative, non-decreasing in tf (strictly when `idf * (k1 + 1) > 0`) and below `idf * (k1 + 1)` |
| Ranker.Score | src/ranker.py:18-27 | scoring fails for an unknown id, and for a known one exactly when the query is non-empty and `avgdl` is zero; an empty query scores 0 |
| Ranker.TermsSumAppend | src/ranker.py:21-27 | the per-term sum is additive over query concatenation |
| Ranker.ScoreAppend | src/ranker.py:21-27 | scores add over query concatenation, so a repeated query term counts once per repetition |
| Ranker.TermsSumAbsent | src/ranker.py:22-26 | query terms absent from the document sum to 0 |
| Ranker.NoMatchScoresZero | src/ranker.py:18-27 | a stored document containing no query term scores 0 |
| Ranker.SingleTermRanksByFrequency | src/ranker.py:18-27 | among documents of equal length, a single-term query ranks strictly by the term's frequency |
| Ranker.RankingExample | src/ranker.py:11-27 | for query `[a]`, `[a,a,a]` scores above `[a,b,a]`, which scores above `[b,c]`, which scores 0 |
| Ranker.HybridScore | src/ranker.py:50-53 | the hybrid score fails exactly when the BM25 score fails, with the same error |
| Ranker.HybridBetween | src/ranker.py:44-53 | for `0 <= alpha <= 1` the hybrid score lies between the BM25 and semantic scores, and equals one of them at `alpha` 1 or 0 |
| Ranker.DefaultHybridOrder | src/ranker.py:45-53 | with the default `alpha = 0.7` one document's hybrid score is below another's exactly when the other's BM25 lead, times 7, exceeds its semantic deficit, times 3 |
| Ranker.HybridPreservesBm25Order | src/ranker.py:50-53 | with equal semantic scores and positive `alpha`, a higher BM25 score gives a higher hybrid score |
| Search.QueryTokens | src/api.py:39 | query tokens are non-empty, whitespace-free and lower-case |
| Search.QueryTokensJoin | src/api.py:39 | lower-case words joined by spaces tokenise back to themselves |
| Search.QueryTokensWords | src/api.py:39 | the tokens are `ws` exactly when the lower-cased query is `ws` with whitespace runs around them, the inner runs non-empty |
| Search.FilterNarrows | src/api.py:43-45 | the `site` test is substring containment: a site string containing another lets through only documents the shorter one lets through, and no site lets through every document |
| Text.ContainsTransitive | src/api.py:44 | a substring of a substring of a URL is a substring of the URL |
| Search.DefaultRequestShape | src/api.py:9-14 | a query-only request uses the hybrid scorer, returns at most ten hits and considers every document |
| Search.Snippet | src/api.py:52 | the snippet is the first `min(300, len(body))` characters of the body |
| Search.Highlights | src/api.py:53 | a token is highlighted exactly when it is a query token present in the document's tokens |
| Search.HighlightsCount | src/api.py:53 | a present token is highlighted as often as it occurs in the query, an absent one never |
| Search.HighlightsAppend | src/api.py:53 | highlighting keeps query order |
| Search.StrLeqTotal | src/api.py:48 | any two doc ids are comparable |
| Search.StrLeqAntisymmetric | src/api.py:48 | doc ids ordered both ways are equal |
| Search.StrLeqTransitive | src/api.py:48 | the doc-id order is transitive |
| Search.CandLeqAntisymmetric | src/api.py:48 | two `(score, doc_id)` tuples ordered both ways are equal |
| Search.CandLeqTransitive | src/api.py:48 | the `(score, doc_id)` tuple order is transitive |
| Search.Insert | src/api.py:48 | inserting into a descending sequence keeps it descending and adds exactly that element |
| Search.Sort | src/api.py:48 | reverse sorting yields a strictly descending permutation of the candidates |
| Search.SortedDescUnique | src/api.py:48 | two strictly descending orders of the same candidates are equal, so the sorted list does not depend on the scan order |
| Search.SliceLength | src/api.py:50 | `candidates[:topK]` keeps `min(topK, n)` items for `topK >= 0`, and `max(0, n + topK)` for a negative one |
| Search.Search | src/api.py:37-61 | the request fails exactly when scoring some site-filtered document fails; otherwise there are `min(topK, #filtered)` hits from distinct filtered documents, each with its chosen scorer's score, snippet and highlights, in descending `(score, doc_id)` order, and no filtered document left out ranks above a returned one |
| Search.ScoreFiltered | src/api.py:43-47 | the scan ends in an error only when some site-filtered document's scoring failed with it; otherwise it yields one candidate per filtered document, each holding that document's score |
| Search.TopMaximal | src/api.py:48-50 | a filtered document outside the first candidates of the sorted list ranks below each of them |
| Search.Bm25RequestFails | src/api.py:39-47 | with the BM25 scorer over the loaded index, some filtered document fails to score exactly when the query has a token, some document passes the site filter and `avgdl` is zero |
| Search.CandidatesCover | src/api.py:43-47 | after the scan every filtered document has exactly one candidate and was scored successfully |
| Search.SelectedProperties | src/api.py:48-50 | the first candidates of the sorted list have distinct ids, are descending, and outrank every candidate left out |
| Search.HitsFromTop | src/api.py:50-60 | the hits built from the selected candidates carry their order, scores and maximality |

`Ranker.Idf`, `Ranker.TermsSum` and `Search.Filtered` are definitions without a row of their own. `Ranker.IdfSign`, `Ranker.TermWeightMonotone`, `Ranker.TermsSumAppend` and `Ranker.TermsSumAbsent` state what the first two mean. `Search.FilterNarrows` states what the third means.

## Left out

- `src/parser.py`, `src/embedder.py` and `SemanticRanker` are not part of this model. HTML parsing, NLP and sentence embeddings are foreign code; the semantic score is a function passed to the hybrid ranker.
- Storage is not modelled: pickle `save`/`load`, snapshot loading in `src/api.py`, `Crawler.save` (file writes, SHA-256), and writing kept files in `dedupe`. They are I/O; the model returns the kept documents instead.
- The FastAPI app, the Pydantic model and the lazy `get_semantic` singleton are not modelled; they are transport and glue.
- `scripts/run_pipeline.py` and `main.py` are not modelled; they are orchestration.
- Concurrency is not modelled: the `asyncio.gather` worker pool, the semaphore and `max_concurrency`. Real sleeping and timeouts are left out too. Concurrent workers can overshoot `limit`, which is not modelled.
- `urlparse`, `urljoin` and BeautifulSoup are parameters. So are MinHash and LSH, with no claim about the 0.9 Jaccard threshold or `num_perm = 128`.
- Text.Lower: lower-cases ASCII letters only. Python's `str.lower` also maps non-ASCII letters. For the `crawl-delay:` and `disallow:` prefixes the outcome is the same.
- Robots.FirstNumber: reads ASCII digits only. Python's `\d` and `int` also accept other Unicode decimal digits.
- Ranker.Score: uses exact `real` arithmetic. Floating-point rounding, overflow and the order of the additions are not modelled.
- Ranker.HybridScore: the semantic score is a total function. The `KeyError` for a document without an embedding is not modelled.
- Crawler.Crawl: `fetch(k, url)` abstracts the whole of `Crawler.fetch` and `save`, including robots and waiting. A `Failure` stands for an exception that escapes the worker, such as `urlparse` rejecting a malformed URL or a failed file write; it ends the crawl with that URL popped and not visited. A popped URL is never already visited, because pending and visited stay disjoint, so every pop is a fetch. With several workers, `gather` would also let the other workers run on, which is not modelled. `Crawler.FetchPage` models one fetch in detail.
- Search.QueryTokens: lower-cases ASCII letters only. Python's `lower()` maps non-ASCII letters too (`"É".lower() == "é"`), so a query with such letters tokenises differently.
- Search.Search: the scorers are parameters and `Ranker.Score` is a ghost function, so the BM25 path is linked to `Ranker.Score` only through `Search.Bm25RequestFails`, not by instantiating `Search.Search`.
- Search.Search: the documents are scanned in an unspecified order. If several scorings would fail, the error returned is one of theirs, not necessarily the first in the table's order. `dateRange` is accepted and ignored, as in the source.
- `Indexer.Document` has no `metadata` field. The parser stores it, but nothing in the pipeline reads it.
- Dedupe.Dedupe: the LSH structure is a list of inserted `(key, signature)` pairs queried pairwise, not banded hash tables.

=== FILE: crawler.dfy ===
/**
 * The crawler: the fetch gate (robots policy, politeness wait, response
 * filter), link extraction and the frontier/visited worker loop, run by a
 * single worker.
 */
module Crawler {
  import opened Wrappers
  import opened Text
  import opened Robots

  /** An HTTP response: status, `content-type` header if present, decoded body. */
  datatype Response = Response(status: int, contentType: Option<string>, text: string)

  /**
   * The robots registry after a fetch attempt, the politeness sleep it asked
   * for, and the page text if the fetch succeeded.
   */
  datatype FetchResult = FetchResult(robots: map<string, Policy>, slept: real, html: Option<string>)

  /**
   * The policy a new robots object ends with: the default one, updated by
   * the robots file when its download returned status 200 (`robotsText`).
   */
  function NewPolicy(robotsText: Option<string>): (p: Policy)
    ensures robotsText.None? ==> p == FreshPolicy()
    ensures p.lastAccess == map[]
  {
    match robotsText
    case None => FreshPolicy()
    case Some(text) => Parse(FreshPolicy(), text).policy
  }

  /** A 200 response whose content type mentions `text/html`; anything else is dropped. */
  function Accept(response: Option<Response>): (html: Option<string>)
    ensures html.Some? <==>
      (response.Some? && response.value.status == 200
       && response.value.contentType.Some? && Contains(response.value.contentType.value, "text/html"))
    ensures html.Some? ==> html.value == response.value.text
  {
    match response
    case None => None
    case Some(r) =>
      var contentType := if r.contentType.Some? then r.contentType.value else "";
      if r.status == 200 && Contains(contentType, "text/html") then Some(r.text) else None
  }

  /** The domain's policy as `fetch` finds it: the stored one, or a new robots object. */
  function PolicyFor(robots: map<string, Policy>, domain: string, robotsText: Option<string>): Policy {
    if domain in robots then robots[domain] else NewPolicy(robotsText)
  }

  /**
   * `fetch(url)` for a URL whose `scheme://netloc` is `domain`, network
   * location `netloc` and path `path`. `robotsText` is what the robots
   * download yields if this is the domain's first fetch, `now`/`resumed` the
   * clock before and after the politeness sleep, and `response` the page
   * request's outcome (`None` when it raised).
   */
  function FetchPage(robots: map<string, Policy>, domain: string, netloc: string, path: string,
                     robotsText: Option<string>, now: real, resumed: real,
                     response: Option<Response>): (r: FetchResult)
    ensures r.robots.Keys == robots.Keys + {domain}
    ensures forall d :: d in robots && d != domain ==> r.robots[d] == robots[d]
    ensures domain in robots ==>
      (r.robots[domain].rules == robots[domain].rules && r.robots[domain].crawlDelay == robots[domain].crawlDelay)
    ensures domain !in robots ==>
      (r.robots[domain].rules == NewPolicy(robotsText).rules
       && r.robots[domain].crawlDelay == NewPolicy(robotsText).crawlDelay)
    ensures !PathAllowed(r.robots[domain].rules, path) ==> r.html.None? && r.slept == 0.0
    ensures !PathAllowed(r.robots[domain].rules, path) ==> r.robots[domain] == PolicyFor(robots, domain, robotsText)
    ensures PathAllowed(r.robots[domain].rules, path) ==>
      && r.slept == WaitTime(PolicyFor(robots, domain, robotsText), netloc, now)
      && LastAccess(r.robots[domain], netloc) == resumed
      && r.html == Accept(response)
    ensures forall n :: n != netloc ==> LastAccess(r.robots[domain], n) == LastAccess(PolicyFor(robots, domain, robotsText), n)
  {
    var policy := PolicyFor(robots, domain, robotsText);
    if !PathAllowed(policy.rules, path) then
      FetchResult(robots[domain := policy], 0.0, None)
    else
      var waited := Wait(policy, netloc, now, resumed);
      FetchResult(robots[domain := waited.1], waited.0, Accept(response))
  }

  /** The robots file is read on a domain's first fetch only: later fetches ignore it. */
  lemma RobotsReadOnce(robots: map<string, Policy>, domain: string, netloc: string, path: string,
                       text1: Option<string>, text2: Option<string>, now: real, resumed: real,
                       response: Option<Response>)
    requires domain in robots
    ensures FetchPage(robots, domain, netloc, path, text1, now, resumed, response)
         == FetchPage(robots, domain, netloc, path, text2, now, resumed, response)
  {
  }

  /**
   * Two allowed fetches from the same network location, on a clock that
   * does not run backwards and sleeps at least as long as asked, start at
   * least the domain's crawl delay apart.
   */
  lemma ConsecutiveFetches(robots: map<string, Policy>, domain: string, netloc: string,
                           path1: string, path2: string, text1: Option<string>, text2: Option<string>,
                           now1: real, resumed1: real, now2: real, resumed2: real,
                           response1: Option<Response>, response2: Option<Response>)
    requires var r1 := FetchPage(robots, domain, netloc, path1, text1, now1, resumed1, response1);
      && PathAllowed(r1.robots[domain].rules, path1)
      && resumed1 >= now1 + r1.slept
      && now2 >= resumed1
    requires var r1 := FetchPage(robots, domain, netloc, path1, text1, now1, resumed1, response1);
      var r2 := FetchPage(r1.robots, domain, netloc, path2, text2, now2, resumed2, response2);
      PathAllowed(r2.robots[domain].rules, path2) && resumed2 >= now2 + r2.slept
    ensures var r1 := FetchPage(robots, domain, netloc, path1, text1, now1, resumed1, response1);
      resumed2 - resumed1 >= r1.robots[domain].crawlDelay as real
  {
    var p := PolicyFor(robots, domain, text1);
    var r1 := FetchPage(robots, domain, netloc, path1, text1, now1, resumed1, response1);
    assert r1.robots[domain] == Wait(p, netloc, now1, resumed1).1;
    ConsecutiveWaits(p, netloc, now1, resumed1, now2, resumed2);
  }

  /**
   * Each domain `scheme://netloc` has its own robots object and so its own
   * access times: a fetch of `http://h` on its first visit does not wait for
   * an access to `https://h` that just happened.
   */
  lemma SchemesWaitApart(robots: map<string, Policy>, netloc: string, path: string,
                         now: real, resumed: real, response: Option<Response>)
    requires "https://" + netloc in robots && LastAccess(robots["https://" + netloc], netloc) == now
    requires "http://" + netloc !in robots
    requires now >= 1.0
    ensures var r := FetchPage(robots, "http://" + netloc, netloc, path, None, now, resumed, response);
      && r.slept == 0.0
      && r.robots["https://" + netloc] == robots["https://" + netloc]
      && LastAccess(r.robots["http://" + netloc], netloc) == resumed
  {
    assert "https://" + netloc != "http://" + netloc by {
      assert ("https://" + netloc)[4] == 's' && ("http://" + netloc)[4] == ':';
    }
  }

  /**
   * `extract_links` over the page's `href` values: absolute links kept
   * verbatim, root-relative ones resolved against the page URL by `join`,
   * all others dropped.
   */
  function ExtractLinks(base: string, hrefs: seq<string>, join: (string, string) -> string): (links: set<string>)
    ensures forall link :: link in links <==> exists i :: 0 <= i < |hrefs| && KeptAs(base, hrefs[i], join, link)
    decreases |hrefs|
  {
    if hrefs == [] then {}
    else
      var last := hrefs[|hrefs| - 1];
      var rest := ExtractLinks(base, hrefs[..|hrefs| - 1], join);
      assert forall i :: 0 <= i < |hrefs| - 1 ==> hrefs[..|hrefs| - 1][i] == hrefs[i];
      if StartsWith(last, "http") then rest + {last}
      else if StartsWith(last, "/") then rest + {join(base, last)}
      else rest
  }

  /** `href` contributes `link` to the page's links. */
  predicate KeptAs(base: string, href: string, join: (string, string) -> string, link: string) {
    || (StartsWith(href, "http") && link == href)
    || (!StartsWith(href, "http") && StartsWith(href, "/") && link == join(base, href))
  }

  /** The shared crawl state: URLs waiting to be fetched and URLs fetched. */
  datatype Frontier = Frontier(pending: set<string>, visited: set<string>)

  function Start(seeds: set<string>): Frontier {
    Frontier(seeds, {})
  }

  /** No URL is both waiting and fetched. */
  predicate Disjoint(s: Frontier) {
    s.pending !! s.visited
  }

  /** `if html:`: a fetch counts when it produced a non-empty page. */
  predicate Fetched(html: Option<string>) {
    html.Some? && html.value != ""
  }

  /**
   * One iteration of the worker loop after `url` is popped: a visited URL is
   * skipped; a fetched page marks `url` visited and queues its links that
   * are not visited; a failed fetch just drops `url`.
   */
  function Step(s: Frontier, url: string, html: Option<string>, links: set<string>): (r: Frontier)
    requires url in s.pending
    ensures url !in r.pending
    ensures url in s.visited || !Fetched(html) ==> r.visited == s.visited
    ensures url !in s.visited && Fetched(html) ==> r.visited == s.visited + {url}
    ensures forall link :: link in links && link !in r.visited && url !in s.visited && Fetched(html) ==> link in r.pending
    ensures r.pending <= s.pending + links
    ensures s.pending - {url} <= r.pending
    ensures url in s.visited || !Fetched(html) ==> r.pending == s.pending - {url}
  {
    var pending := s.pending - {url};
    if url in s.visited then Frontier(pending, s.visited)
    else if Fetched(html) then
      var visited := s.visited + {url};
      Frontier(pending + (links - visited), visited)
    else Frontier(pending, s.visited)
  }

  /**
   * A step from a consistent state stays consistent, never forgets a visited
   * URL, never queues one again, and either grows `visited` by one or
   * shrinks `pending` with `visited` unchanged.
   */
  lemma StepInvariant(s: Frontier, url: string, html: Option<string>, links: set<string>)
    requires Disjoint(s) && url in s.pending
    ensures var r := Step(s, url, html, links);
      && Disjoint(r)
      && s.visited <= r.visited
      && (forall u :: u in s.visited ==> u !in r.pending)
      && (|r.visited| == |s.visited| + 1 || (r.visited == s.visited && |r.pending| < |s.pending|))
      && (|r.visited| == |s.visited| + 1 <==> Fetched(html))
  {
    var r := Step(s, url, html, links);
    assert url !in s.visited;
    if !Fetched(html) {
      assert r.pending == s.pending - {url};
    }
  }

  lemma StepCovered(s: Frontier, url: string, html: Option<string>, links: set<string>,
                    seeds: set<string>, discovered: set<string>)
    requires url in s.pending
    requires s.visited + s.pending <= seeds + discovered
    ensures var r := Step(s, url, html, links); r.visited + r.pending <= seeds + (discovered + links)
  {
  }

  /**
   * One fetch of the crawl: the URL popped, the page the fetch returned, and
   * the links extracted from it (none unless the page counts as fetched).
   */
  datatype Attempt = Attempt(url: string, html: Option<string>, links: set<string>)

  /** The links `crawl` takes from the page `html` fetched from `url`. */
  function PageLinks(url: string, html: Option<string>, hrefsOf: string -> seq<string>,
                     join: (string, string) -> string): set<string> {
    if Fetched(html) then ExtractLinks(url, hrefsOf(html.value), join) else {}
  }

  /** Attempt `a` is what the `k`-th fetch returned, with the links of its page. */
  ghost predicate Recorded<E>(fetch: (nat, string) -> Result<Option<string>, E>, hrefsOf: string -> seq<string>,
                        join: (string, string) -> string, k: nat, a: Attempt) {
    fetch(k, a.url) == Success(a.html) && a.links == PageLinks(a.url, a.html, hrefsOf, join)
  }

  /**
   * The state reached from `s0` by the worker steps of `trace`, in order;
   * `None` when some attempted URL was not waiting at that point.
   */
  function Replay(s0: Frontier, trace: seq<Attempt>): Option<Frontier>
    decreases |trace|
  {
    if trace == [] then Some(s0)
    else
      var a := trace[|trace| - 1];
      match Replay(s0, trace[..|trace| - 1])
      case None => None
      case Some(m) => if a.url in m.pending then Some(Step(m, a.url, a.html, a.links)) else None
  }

  /** Every link extracted over `trace`. */
  function LinksOf(trace: seq<Attempt>): set<string>
    decreases |trace|
  {
    if trace == [] then {} else LinksOf(trace[..|trace| - 1]) + trace[|trace| - 1].links
  }

  /** A replayed state has visited exactly the URLs of the attempts that fetched a page. */
  lemma {:induction false} ReplayVisited(s0: Frontier, trace: seq<Attempt>)
    requires Replay(s0, trace).Some?
    ensures forall u :: u in Replay(s0, trace).value.visited <==>
      u in s0.visited || exists i :: 0 <= i < |trace| && trace[i].url == u && Fetched(trace[i].html)
    decreases |trace|
  {
    if trace != [] {
      var init := trace[..|trace| - 1];
      ReplayVisited(s0, init);
      assert forall i :: 0 <= i < |init| ==> init[i] == trace[i];
    }
  }

  /**
   * `crawl(seeds, limit)` with one worker. `fetch(k, url)` is the outcome of
   * the `k`-th fetch together with saving its page: the page text
   * (`FetchPage` above), or the exception that escaped `fetch` or `save`
   * (`urlparse` on a malformed URL, a failed file write). Such an exception
   * ends the worker and with it the whole crawl, after the URL was popped.
   * `hrefsOf` is the anchors the HTML parser finds, `join` URL resolution.
   * Returns the state reached, every link extracted, the fetches made in
   * order, and the exception if one ended the crawl.
   */
  method Crawl<E>(seeds: set<string>, limit: int, fetch: (nat, string) -> Result<Option<string>, E>,
                  hrefsOf: string -> seq<string>, join: (string, string) -> string)
    returns (s: Frontier, discovered: set<string>, trace: seq<Attempt>, error: Option<E>)
    ensures Disjoint(s)
    ensures limit >= 0 ==> |s.visited| <= limit
    ensures limit <= 0 ==> s == Start(seeds) && trace == [] && error.None?
    ensures error.None? ==> s.pending == {} || |s.visited| >= limit
    ensures error.Some? ==> |s.visited| < limit
    ensures s.visited + s.pending <= seeds + discovered
    ensures forall k :: 0 <= k < |trace| ==> Recorded(fetch, hrefsOf, join, k, trace[k])
    ensures discovered == LinksOf(trace)
    ensures Replay(Start(seeds), trace).Some?
    ensures error.None? ==> Replay(Start(seeds), trace) == Some(s)
    ensures error.Some? ==> exists u :: Failed(fetch, |trace|, u, error.value, Replay(Start(seeds), trace).value, s)
    ensures forall u :: u in s.visited <==> exists k :: 0 <= k < |trace| && trace[k].url == u && Fetched(trace[k].html)
  {
    s := Start(seeds);
    discovered, trace, error := {}, [], None;
    while s.pending != {} && |s.visited| < limit
      invariant Crawling(seeds, fetch, hrefsOf, join, s, discovered, trace)
      invariant limit >= 0 ==> |s.visited| <= limit
      invariant limit <= 0 ==> s == Start(seeds) && trace == []
      decreases limit - |s.visited|, |s.pending|
    {
      var url :| url in s.pending;
      var outcome := fetch(|trace|, url);
      if outcome.Failure? {
        s, error := Failing(seeds, fetch, hrefsOf, join, s, discovered, trace, url, outcome.error);
        return;
      }
      var a := Attempt(url, outcome.value, PageLinks(url, outcome.value, hrefsOf, join));
      CrawlStep(seeds, fetch, hrefsOf, join, s, discovered, trace, a);
      s := Step(s, url, a.html, a.links);
      discovered := discovered + a.links;
      trace := trace + [a];
    }
    ReplayVisited(Start(seeds), trace);
  }

  /** What holds between iterations of the worker loop. */
  ghost predicate Crawling<E>(seeds: set<string>, fetch: (nat, string) -> Result<Option<string>, E>,
                              hrefsOf: string -> seq<string>, join: (string, string) -> string,
                              s: Frontier, discovered: set<string>, trace: seq<Attempt>) {
    && Disjoint(s)
    && s.visited + s.pending <= seeds + discovered
    && (forall k :: 0 <= k < |trace| ==> Recorded(fetch, hrefsOf, join, k, trace[k]))
    && discovered == LinksOf(trace)
    && Replay(Start(seeds), trace) == Some(s)
  }

  /** A successful fetch of a waiting URL keeps the loop invariant and makes progress. */
  lemma CrawlStep<E>(seeds: set<string>, fetch: (nat, string) -> Result<Option<string>, E>,
                     hrefsOf: string -> seq<string>, join: (string, string) -> string,
                     s: Frontier, discovered: set<string>, trace: seq<Attempt>, a: Attempt)
    requires Crawling(seeds, fetch, hrefsOf, join, s, discovered, trace)
    requires a.url in s.pending && Recorded(fetch, hrefsOf, join, |trace|, a)
    ensures var r := Step(s, a.url, a.html, a.links);
      && Crawling(seeds, fetch, hrefsOf, join, r, discovered + a.links, trace + [a])
      && (|r.visited| == |s.visited| + 1 || (r.visited == s.visited && |r.pending| < |s.pending|))
  {
    StepInvariant(s, a.url, a.html, a.links);
    StepCovered(s, a.url, a.html, a.links, seeds, discovered);
    AppendAttempt(Start(seeds), trace, a, s);
    var t := trace + [a];
    forall k | 0 <= k < |t|
      ensures Recorded(fetch, hrefsOf, join, k, t[k])
    {
      if k < |trace| {
        assert t[k] == trace[k];
      }
    }
  }

  /** The state a fetch that raised leaves: the URL popped, nothing else changed. */
  method Failing<E>(seeds: set<string>, fetch: (nat, string) -> Result<Option<string>, E>,
                    hrefsOf: string -> seq<string>, join: (string, string) -> string,
                    s: Frontier, discovered: set<string>, trace: seq<Attempt>, url: string, e: E)
    returns (r: Frontier, error: Option<E>)
    requires Crawling(seeds, fetch, hrefsOf, join, s, discovered, trace)
    requires url in s.pending && fetch(|trace|, url) == Failure(e)
    ensures error == Some(e)
    ensures Disjoint(r) && r.visited == s.visited
    ensures r.visited + r.pending <= seeds + discovered
    ensures Failed(fetch, |trace|, url, e, Replay(Start(seeds), trace).value, r)
    ensures forall u :: u in r.visited <==> exists k :: 0 <= k < |trace| && trace[k].url == u && Fetched(trace[k].html)
  {
    r, error := Frontier(s.pending - {url}, s.visited), Some(e);
    ReplayVisited(Start(seeds), trace);
  }

  /** The `k`-th fetch, of `u` waiting in `m`, raised `e`, leaving `s`: `m` with `u` popped. */
  ghost predicate Failed<E>(fetch: (nat, string) -> Result<Option<string>, E>, k: nat, u: string, e: E, m: Frontier, s: Frontier) {
    u in m.pending && fetch(k, u) == Failure(e) && s == Frontier(m.pending - {u}, m.visited)
  }

  lemma AppendAttempt(s0: Frontier, trace: seq<Attempt>, a: Attempt, s: Frontier)
    requires Replay(s0, trace) == Some(s) && a.url in s.pending
    ensures Replay(s0, trace + [a]) == Some(Step(s, a.url, a.html, a.links))
    ensures LinksOf(trace + [a]) == LinksOf(trace) + a.links
  {
    assert (trace + [a])[..|trace|] == trace;
  }
}

=== FILE: dedupe.dfy ===
/**
 * Near-duplicate removal: a single greedy pass that keeps a document unless
 * its signature collides with the signature of a document already kept.
 *
 * The MinHash signature is a function `signature` of the document's token
 * set, so token order and repetition cannot influence it. The LSH index
 * answers a query with the keys of the inserted entries whose signature
 * shares a band with the query's; `collides` is that pairwise relation.
 */
module Dedupe {
  import opened Wrappers
  import opened Text
  import opened Indexer

  /** Only files ending in `.json` are considered. */
  predicate Considered(fname: string) {
    EndsWith(fname, ".json")
  }

  /** `lsh.query(m)`: the keys of the inserted entries whose signature collides with `m`. */
  function Query<S>(m: S, lsh: seq<(string, S)>, collides: (S, S) -> bool): (keys: seq<string>)
    ensures |keys| == 0 <==> forall j :: 0 <= j < |lsh| ==> !collides(m, lsh[j].1)
    decreases |lsh|
  {
    if lsh == [] then []
    else
      var rest := Query(m, lsh[..|lsh| - 1], collides);
      assert forall j :: 0 <= j < |lsh| - 1 ==> lsh[..|lsh| - 1][j] == lsh[j];
      rest + (if collides(m, lsh[|lsh| - 1].1) then [lsh[|lsh| - 1].0] else [])
  }

  /** `kept` lists strictly increasing indices of `listing`. */
  predicate IndicesOf<T>(kept: seq<nat>, listing: seq<T>) {
    && (forall j :: 0 <= j < |kept| ==> kept[j] < |listing|)
    && (forall i, j :: 0 <= i < j < |kept| ==> kept[i] < kept[j])
  }

  /** The signature of the document at index `i`. */
  function SigAt<S>(listing: seq<(string, Document)>, signature: set<string> -> S, i: nat): S
    requires i < |listing|
  {
    signature(Terms(listing[i].1))
  }

  /**
   * The greedy decision for index `i`, given the indices kept: the file is
   * considered and its signature collides with no kept document before it.
   */
  ghost predicate KeepAt<S>(listing: seq<(string, Document)>, signature: set<string> -> S,
                            collides: (S, S) -> bool, kept: seq<nat>, i: nat)
    requires i < |listing|
    requires IndicesOf(kept, listing)
  {
    && Considered(listing[i].0)
    && forall j :: 0 <= j < |kept| && kept[j] < i ==>
         !collides(SigAt(listing, signature, i), SigAt(listing, signature, kept[j]))
  }

  /**
   * `kept` is exactly the set of indices below `n` the greedy pass keeps:
   * the decisions for the first `n` entries of the listing.
   */
  ghost predicate GreedyUpTo<S>(listing: seq<(string, Document)>, signature: set<string> -> S,
                                collides: (S, S) -> bool, kept: seq<nat>, n: nat)
  {
    && n <= |listing|
    && IndicesOf(kept, listing)
    && (forall j :: 0 <= j < |kept| ==> kept[j] < n)
    && forall i: nat :: i < n ==> (i in kept <==> KeepAt(listing, signature, collides, kept, i))
  }

  /** The key a file is inserted under: `fname.replace('.json', '')`. */
  function Key(fname: string): string {
    RemoveAll(fname, ".json")
  }

  /** The keys of the kept files. */
  function KeptKeys(listing: seq<(string, Document)>, kept: seq<nat>): (keys: set<string>)
    requires IndicesOf(kept, listing)
    ensures forall j :: 0 <= j < |kept| ==> Key(listing[kept[j]].0) in keys
    ensures forall h :: h in keys ==> exists j :: 0 <= j < |kept| && Key(listing[kept[j]].0) == h
  {
    set j | 0 <= j < |kept| :: Key(listing[kept[j]].0)
  }

  /** No two kept files share a key. */
  predicate DistinctKeys(listing: seq<(string, Document)>, kept: seq<nat>)
    requires IndicesOf(kept, listing)
  {
    forall a, b :: 0 <= a < b < |kept| ==> Key(listing[kept[a]].0) != Key(listing[kept[b]].0)
  }

  /**
   * `dedupe()` over the directory listing in enumeration order: returns the
   * documents written to the output directory, in order, and their indices.
   * `crash` is the index at which `lsh.insert` raised because a kept file
   * already has the same key; the pass stops there, after the files already
   * written.
   */
  method Dedupe<S>(listing: seq<(string, Document)>, signature: set<string> -> S, collides: (S, S) -> bool)
    returns (out: seq<(string, Document)>, kept: seq<nat>, crash: Option<nat>)
    ensures |out| == |kept|
    ensures forall j :: 0 <= j < |kept| ==> kept[j] < |listing| && out[j] == listing[kept[j]]
    ensures crash.None? ==> GreedyUpTo(listing, signature, collides, kept, |listing|)
    ensures crash.Some? ==>
      && crash.value < |listing|
      && GreedyUpTo(listing, signature, collides, kept, crash.value)
      && KeepAt(listing, signature, collides, kept, crash.value)
      && Key(listing[crash.value].0) in KeptKeys(listing, kept)
    ensures DistinctKeys(listing, kept)
  {
    var lsh: seq<(string, S)> := [];
    out, kept, crash := [], [], None;
    var i := 0;
    while i < |listing|
      invariant i <= |listing|
      invariant Progress(lsh, listing, signature, collides, out, kept, i)
    {
      var crashed;
      lsh, out, kept, crashed := Visit(lsh, listing, signature, collides, out, kept, i);
      if crashed {
        crash := Some(i);
        return;
      }
      i := i + 1;
    }
  }

  /**
   * One iteration of the pass, on file `i`: skip it, keep it (query empty,
   * key inserted, document written), or raise because its key is taken.
   */
  method Visit<S>(lsh: seq<(string, S)>, listing: seq<(string, Document)>, signature: set<string> -> S,
                  collides: (S, S) -> bool, out: seq<(string, Document)>, kept: seq<nat>, i: nat)
    returns (lsh': seq<(string, S)>, out': seq<(string, Document)>, kept': seq<nat>, crashed: bool)
    requires i < |listing| && Progress(lsh, listing, signature, collides, out, kept, i)
    ensures !crashed ==> Progress(lsh', listing, signature, collides, out', kept', i + 1)
    ensures crashed ==> out' == out && kept' == kept
    ensures crashed ==>
      && KeepAt(listing, signature, collides, kept, i)
      && Key(listing[i].0) in KeptKeys(listing, kept)
  {
    lsh', out', kept', crashed := lsh, out, kept, false;
    var (fname, doc) := listing[i];
    if EndsWith(fname, ".json") {
      var m := signature(Terms(doc));
      var h := RemoveAll(fname, ".json");
      QueryDecides(lsh, listing, signature, collides, kept, i);
      if |Query(m, lsh, collides)| == 0 {
        if exists j | 0 <= j < |lsh| :: lsh[j].0 == h {
          KeyAlreadyKept(lsh, listing, signature, kept, i);
          crashed := true;
          return;
        }
        KeepStep(lsh, listing, signature, collides, out, kept, i);
        lsh', out', kept' := lsh + [(h, m)], out + [listing[i]], kept + [i];
        return;
      }
    }
    SkipStep(lsh, listing, signature, collides, out, kept, i);
  }

  /** The state of the pass after the first `i` files. */
  ghost predicate Progress<S>(lsh: seq<(string, S)>, listing: seq<(string, Document)>, signature: set<string> -> S,
                              collides: (S, S) -> bool, out: seq<(string, Document)>, kept: seq<nat>, i: nat)
  {
    && GreedyUpTo(listing, signature, collides, kept, i)
    && |out| == |kept|
    && (forall j :: 0 <= j < |kept| ==> out[j] == listing[kept[j]])
    && Mirrors(lsh, listing, signature, kept)
    && DistinctKeys(listing, kept)
  }

  /** Keeping file `i` (its key not yet inserted) advances the pass. */
  lemma KeepStep<S>(lsh: seq<(string, S)>, listing: seq<(string, Document)>, signature: set<string> -> S,
                    collides: (S, S) -> bool, out: seq<(string, Document)>, kept: seq<nat>, i: nat)
    requires Progress(lsh, listing, signature, collides, out, kept, i)
    requires i < |listing| && KeepAt(listing, signature, collides, kept, i)
    requires !exists j | 0 <= j < |lsh| :: lsh[j].0 == Key(listing[i].0)
    ensures Progress(lsh + [(Key(listing[i].0), SigAt(listing, signature, i))], listing, signature, collides,
                     out + [listing[i]], kept + [i], i + 1)
  {
    GreedyKeep(listing, signature, collides, kept, i);
    InsertKey(lsh, listing, signature, kept, i);
    var out', kept' := out + [listing[i]], kept + [i];
    assert forall j :: 0 <= j < |kept'| ==> out'[j] == listing[kept'[j]];
  }

  /** Skipping file `i` advances the pass. */
  lemma SkipStep<S>(lsh: seq<(string, S)>, listing: seq<(string, Document)>, signature: set<string> -> S,
                    collides: (S, S) -> bool, out: seq<(string, Document)>, kept: seq<nat>, i: nat)
    requires Progress(lsh, listing, signature, collides, out, kept, i)
    requires i < |listing| && !KeepAt(listing, signature, collides, kept, i)
    ensures Progress(lsh, listing, signature, collides, out, kept, i + 1)
  {
    GreedySkip(listing, signature, collides, kept, i);
  }

  /** The LSH index holds exactly the kept files' keys and signatures, in insertion order. */
  ghost predicate Mirrors<S>(lsh: seq<(string, S)>, listing: seq<(string, Document)>, signature: set<string> -> S,
                             kept: seq<nat>)
    requires IndicesOf(kept, listing)
  {
    && |lsh| == |kept|
    && forall j :: 0 <= j < |kept| ==> lsh[j].0 == Key(listing[kept[j]].0) && lsh[j].1 == SigAt(listing, signature, kept[j])
  }

  /** A key found in the LSH index belongs to a kept file. */
  lemma KeyAlreadyKept<S>(lsh: seq<(string, S)>, listing: seq<(string, Document)>, signature: set<string> -> S,
                          kept: seq<nat>, i: nat)
    requires IndicesOf(kept, listing) && i < |listing|
    requires Mirrors(lsh, listing, signature, kept)
    requires exists j | 0 <= j < |lsh| :: lsh[j].0 == Key(listing[i].0)
    ensures Key(listing[i].0) in KeptKeys(listing, kept)
  {
    var j :| 0 <= j < |lsh| && lsh[j].0 == Key(listing[i].0);
    assert Key(listing[kept[j]].0) == Key(listing[i].0);
  }

  /** Once every kept index lies before `i`, the LSH query decides the greedy choice for `i`. */
  lemma QueryDecides<S>(lsh: seq<(string, S)>, listing: seq<(string, Document)>, signature: set<string> -> S,
                        collides: (S, S) -> bool, kept: seq<nat>, i: nat)
    requires GreedyUpTo(listing, signature, collides, kept, i)
    requires i < |listing| && Considered(listing[i].0)
    requires Mirrors(lsh, listing, signature, kept)
    ensures |Query(SigAt(listing, signature, i), lsh, collides)| == 0 <==> KeepAt(listing, signature, collides, kept, i)
  {
  }

  /** Deciding to skip `i` extends the greedy prefix by one. */
  lemma GreedySkip<S>(listing: seq<(string, Document)>, signature: set<string> -> S,
                      collides: (S, S) -> bool, kept: seq<nat>, i: nat)
    requires GreedyUpTo(listing, signature, collides, kept, i)
    requires i < |listing| && !KeepAt(listing, signature, collides, kept, i)
    ensures GreedyUpTo(listing, signature, collides, kept, i + 1)
  {
  }

  /** Deciding to keep `i` extends the greedy prefix by one. */
  lemma GreedyKeep<S>(listing: seq<(string, Document)>, signature: set<string> -> S,
                      collides: (S, S) -> bool, kept: seq<nat>, i: nat)
    requires GreedyUpTo(listing, signature, collides, kept, i)
    requires i < |listing| && KeepAt(listing, signature, collides, kept, i)
    ensures GreedyUpTo(listing, signature, collides, kept + [i], i + 1)
  {
    KeepPreserved(listing, signature, collides, kept, i);
  }

  /** Inserting a key the index does not hold keeps it mirrored and the keys distinct. */
  lemma InsertKey<S>(lsh: seq<(string, S)>, listing: seq<(string, Document)>, signature: set<string> -> S,
                     kept: seq<nat>, i: nat)
    requires IndicesOf(kept, listing)
    requires i < |listing| && forall j :: 0 <= j < |kept| ==> kept[j] < i
    requires Mirrors(lsh, listing, signature, kept)
    requires DistinctKeys(listing, kept)
    requires !exists j | 0 <= j < |lsh| :: lsh[j].0 == Key(listing[i].0)
    ensures IndicesOf(kept + [i], listing)
    ensures Mirrors(lsh + [(Key(listing[i].0), SigAt(listing, signature, i))], listing, signature, kept + [i])
    ensures DistinctKeys(listing, kept + [i])
  {
  }

  /** Appending a larger index to `kept` does not change the decisions before it. */
  lemma KeepPreserved<S>(listing: seq<(string, Document)>, signature: set<string> -> S,
                         collides: (S, S) -> bool, kept: seq<nat>, i: nat)
    requires i < |listing|
    requires IndicesOf(kept, listing)
    requires forall j :: 0 <= j < |kept| ==> kept[j] < i
    ensures IndicesOf(kept + [i], listing)
    ensures forall k: nat :: k <= i ==>
      (KeepAt(listing, signature, collides, kept + [i], k) <==> KeepAt(listing, signature, collides, kept, k))
  {
    var kept' := kept + [i];
    assert forall j :: 0 <= j < |kept| ==> kept'[j] == kept[j];
    assert kept'[|kept|] == i;
  }

  /** The first considered file is always kept: nothing has been inserted before it. */
  lemma FirstConsideredKept<S>(listing: seq<(string, Document)>, signature: set<string> -> S,
                               collides: (S, S) -> bool, kept: seq<nat>, n: nat, i: nat)
    requires GreedyUpTo(listing, signature, collides, kept, n)
    requires i < n && Considered(listing[i].0)
    requires forall k :: 0 <= k < i ==> !Considered(listing[k].0)
    ensures i in kept
  {
    forall j | 0 <= j < |kept|
      ensures kept[j] >= i
    {
      assert kept[j] in kept;
    }
    assert KeepAt(listing, signature, collides, kept, i);
  }

  /** No kept document collides with a kept document before it. */
  lemma KeptDoNotCollide<S>(listing: seq<(string, Document)>, signature: set<string> -> S,
                            collides: (S, S) -> bool, kept: seq<nat>, n: nat, a: nat, b: nat)
    requires GreedyUpTo(listing, signature, collides, kept, n)
    requires a < b < |kept|
    ensures !collides(SigAt(listing, signature, kept[b]), SigAt(listing, signature, kept[a]))
  {
    assert kept[b] in kept;
  }

  /**
   * A considered but dropped document collides with a kept document before
   * it: only emitted documents are ever inserted, so only they can cause a
   * rejection.
   */
  lemma DroppedHasKeptWitness<S>(listing: seq<(string, Document)>, signature: set<string> -> S,
                                 collides: (S, S) -> bool, kept: seq<nat>, n: nat, i: nat)
    requires GreedyUpTo(listing, signature, collides, kept, n)
    requires i < n && Considered(listing[i].0) && i !in kept
    ensures exists j :: (0 <= j < |kept| && kept[j] < i
                         && collides(SigAt(listing, signature, i), SigAt(listing, signature, kept[j])))
  {
  }

  /** The decisions determine the kept indices: two greedy outcomes over the same prefix agree. */
  lemma {:induction false} GreedyUnique<S>(listing: seq<(string, Document)>, signature: set<string> -> S,
                                           collides: (S, S) -> bool, kept1: seq<nat>, kept2: seq<nat>, n: nat)
    requires GreedyUpTo(listing, signature, collides, kept1, n)
    requires GreedyUpTo(listing, signature, collides, kept2, n)
    ensures kept1 == kept2
  {
    forall i: nat | i < n
      ensures i in kept1 <==> i in kept2
    {
      SameDecisionsUpTo(listing, signature, collides, kept1, kept2, n, i);
    }
    SameElementsSameSeq(kept1, kept2, n);
  }

  lemma {:induction false} SameDecisionsUpTo<S>(listing: seq<(string, Document)>, signature: set<string> -> S,
                                                collides: (S, S) -> bool, kept1: seq<nat>, kept2: seq<nat>,
                                                n: nat, i: nat)
    requires GreedyUpTo(listing, signature, collides, kept1, n)
    requires GreedyUpTo(listing, signature, collides, kept2, n)
    requires i < n
    ensures forall k: nat :: k <= i ==> (k in kept1 <==> k in kept2)
    decreases i
  {
    if i > 0 {
      SameDecisionsUpTo(listing, signature, collides, kept1, kept2, n, i - 1);
    }
    var s := SigAt(listing, signature, i);
    var before1 := forall j :: 0 <= j < |kept1| && kept1[j] < i ==> !collides(s, SigAt(listing, signature, kept1[j]));
    var before2 := forall j :: 0 <= j < |kept2| && kept2[j] < i ==> !collides(s, SigAt(listing, signature, kept2[j]));
    if !before1 {
      var j :| 0 <= j < |kept1| && kept1[j] < i && collides(s, SigAt(listing, signature, kept1[j]));
      assert kept1[j] in kept1;
      var j2 :| 0 <= j2 < |kept2| && kept2[j2] == kept1[j];
    }
    if !before2 {
      var j :| 0 <= j < |kept2| && kept2[j] < i && collides(s, SigAt(listing, signature, kept2[j]));
      assert kept2[j] in kept2;
      var j1 :| 0 <= j1 < |kept1| && kept1[j1] == kept2[j];
    }
  }

  /** Two strictly increasing index sequences with the same elements are equal. */
  lemma {:induction false} SameElementsSameSeq(a: seq<nat>, b: seq<nat>, bound: nat)
    requires forall i, j :: 0 <= i < j < |a| ==> a[i] < a[j]
    requires forall i, j :: 0 <= i < j < |b| ==> b[i] < b[j]
    requires forall x :: x in a ==> x < bound
    requires forall x :: x in b ==> x < bound
    requires forall x: nat :: x < bound ==> (x in a <==> x in b)
    ensures a == b
    decreases |a| + |b|
  {
    if a != [] {
      assert a[0] in a;
    }
    if b != [] {
      assert b[0] in b;
    }
    if a != [] && b != [] {
      var ja :| 0 <= ja < |a| && a[ja] == b[0];
      var jb :| 0 <= jb < |b| && b[jb] == a[0];
      assert a[0] <= a[ja] && b[0] <= b[jb];
      var a', b' := a[1..], b[1..];
      forall x | x in a' ensures x in a && x != a[0] {
        var j :| 0 <= j < |a'| && a'[j] == x;
        assert a[j + 1] == x;
      }
      forall x | x in b' ensures x in b && x != b[0] {
        var j :| 0 <= j < |b'| && b'[j] == x;
        assert b[j + 1] == x;
      }
      forall x: nat | x < bound && x in a
        ensures x == a[0] || x in a'
      {
        var j :| 0 <= j < |a| && a[j] == x;
        if j > 0 { assert a'[j - 1] == x; }
      }
      forall x: nat | x < bound && x in b
        ensures x == b[0] || x in b'
      {
        var j :| 0 <= j < |b| && b[j] == x;
        if j > 0 { assert b'[j - 1] == x; }
      }
      SameElementsSameSeq(a', b', bound);
      assert a == [a[0]] + a';
      assert b == [b[0]] + b';
    }
  }
}

=== FILE: indexer.dfy ===
/**
 * The inverted index: positional postings, per-term document frequency,
 * per-document statistics, the document table and the document counter, all
 * built by accumulating one document at a time.
 */
module Indexer {
  import opened Text

  /** A parsed document as the parser stores it; the index keeps it whole. */
  datatype Document = Document(
    url: string,
    title: string,
    headings: seq<string>,
    body: string,
    tokens: seq<string>)

  /** The per-document record `{length, title, url}`. */
  datatype DocStat = DocStat(length: nat, title: string, url: string)

  /** One entry of a term's posting list: a document and the term's positions in it. */
  datatype Posting = Posting(docId: string, positions: seq<nat>)

  /**
   * The index state. `postings` and `termDocFreq` are a `defaultdict(list)` and a
   * `Counter`: an absent key reads as the empty list and as 0.
   */
  datatype InvertedIndex = InvertedIndex(
    postings: map<string, seq<Posting>>,
    docStats: map<string, DocStat>,
    termDocFreq: map<string, nat>,
    docTable: map<string, Document>,
    n: nat)

  /** A freshly constructed index. */
  function Empty(): InvertedIndex {
    InvertedIndex(map[], map[], map[], map[], 0)
  }

  function PostingsOf(idx: InvertedIndex, t: string): seq<Posting> {
    if t in idx.postings then idx.postings[t] else []
  }

  function DocFreq(idx: InvertedIndex, t: string): nat {
    if t in idx.termDocFreq then idx.termDocFreq[t] else 0
  }

  function StatOf(doc: Document): DocStat {
    DocStat(|doc.tokens|, doc.title, doc.url)
  }

  /**
   * The positions at which `t` occurs in `tokens`, in the order the
   * enumeration visits them.
   */
  function Positions(tokens: seq<string>, t: string): (ps: seq<nat>)
    ensures forall i :: 0 <= i < |ps| ==> ps[i] < |tokens| && tokens[ps[i]] == t
    ensures forall p :: 0 <= p < |tokens| && tokens[p] == t ==> p in ps
    ensures forall i, j :: 0 <= i < j < |ps| ==> ps[i] < ps[j]
    decreases |tokens|
  {
    if tokens == [] then []
    else
      var last := |tokens| - 1;
      Positions(tokens[..last], t) + (if tokens[last] == t then [last] else [])
  }

  /** A term's position list is as long as the term's occurrence count. */
  lemma {:induction false} PositionsCount(tokens: seq<string>, t: string)
    ensures |Positions(tokens, t)| == Count(tokens, t)
    decreases |tokens|
  {
    if tokens != [] {
      PositionsCount(tokens[..|tokens| - 1], t);
    }
  }

  /** Every token index lands in exactly one position list: its own token's. */
  lemma PositionsPartition(tokens: seq<string>, p: nat, t: string)
    requires p < |tokens|
    ensures p in Positions(tokens, t) <==> tokens[p] == t
  {
    var ps := Positions(tokens, t);
    if p in ps {
      var i :| 0 <= i < |ps| && ps[i] == p;
    }
  }

  /**
   * The `positions` dictionary built by enumerating the tokens: one key per
   * distinct token, mapped to that token's positions.
   */
  method GroupPositions(tokens: seq<string>) returns (positions: map<string, seq<nat>>)
    ensures forall t :: t in positions <==> t in tokens
    ensures forall t :: t in positions ==> positions[t] == Positions(tokens, t)
  {
    positions := map[];
    var pos := 0;
    while pos < |tokens|
      invariant 0 <= pos <= |tokens|
      invariant forall t :: t in positions <==> t in tokens[..pos]
      invariant forall t :: t in positions ==> positions[t] == Positions(tokens[..pos], t)
    {
      GroupStep(tokens, pos, positions);
      var token := tokens[pos];
      var prev := if token in positions then positions[token] else [];
      positions := positions[token := prev + [pos]];
      pos := pos + 1;
    }
    assert tokens[..pos] == tokens;
  }

  /** One enumeration step of `GroupPositions` keeps its loop invariant. */
  lemma GroupStep(tokens: seq<string>, pos: nat, before: map<string, seq<nat>>)
    requires pos < |tokens|
    requires forall t :: t in before <==> t in tokens[..pos]
    requires forall t :: t in before ==> before[t] == Positions(tokens[..pos], t)
    ensures var token := tokens[pos];
      var after := before[token := (if token in before then before[token] else []) + [pos]];
      && (forall t :: t in after <==> t in tokens[..pos + 1])
      && (forall t :: t in after ==> after[t] == Positions(tokens[..pos + 1], t))
  {
    var token := tokens[pos];
    var prev := if token in before then before[token] else [];
    var after := before[token := prev + [pos]];
    assert tokens[..pos + 1] == tokens[..pos] + [token];
    forall t | t in after
      ensures after[t] == Positions(tokens[..pos + 1], t)
    {
      PositionsSnoc(tokens, pos, t);
      if t == token {
        FreshTokenPositions(tokens[..pos], token);
      }
    }
  }

  /** A token not seen yet has no positions. */
  lemma FreshTokenPositions(tokens: seq<string>, t: string)
    ensures t !in tokens ==> Positions(tokens, t) == []
  {
    var ps := Positions(tokens, t);
    assert |ps| > 0 ==> tokens[ps[0]] == t;
  }

  lemma PositionsSnoc(tokens: seq<string>, pos: nat, t: string)
    requires pos < |tokens|
    ensures Positions(tokens[..pos + 1], t)
      == Positions(tokens[..pos], t) + (if tokens[pos] == t then [pos] else [])
  {
    assert tokens[..pos + 1][..pos] == tokens[..pos];
  }

  /** The set of distinct tokens of a document: `set(doc['tokens'])`. */
  function Terms(doc: Document): set<string> {
    set t | t in doc.tokens
  }

  /**
   * Adds one document: records its stats and the document itself under
   * `docId` (overwriting), appends one posting per distinct token, bumps each
   * such token's document frequency and the document counter.
   */
  function AddDocument(idx: InvertedIndex, docId: string, doc: Document): (r: InvertedIndex)
    ensures r.n == idx.n + 1
    ensures r.docStats.Keys == idx.docStats.Keys + {docId} && r.docStats[docId] == StatOf(doc)
    ensures forall id :: id in idx.docStats && id != docId ==> r.docStats[id] == idx.docStats[id]
    ensures r.docTable.Keys == idx.docTable.Keys + {docId} && r.docTable[docId] == doc
    ensures forall id :: id in idx.docTable && id != docId ==> r.docTable[id] == idx.docTable[id]
    ensures forall t :: t in doc.tokens ==>
      PostingsOf(r, t) == PostingsOf(idx, t) + [Posting(docId, Positions(doc.tokens, t))]
    ensures forall t :: t in doc.tokens ==> DocFreq(r, t) == DocFreq(idx, t) + 1
    ensures forall t :: t !in doc.tokens ==>
      PostingsOf(r, t) == PostingsOf(idx, t) && DocFreq(r, t) == DocFreq(idx, t)
  {
    var terms := Terms(doc);
    InvertedIndex(
      map t | t in idx.postings.Keys + terms ::
        if t in terms then PostingsOf(idx, t) + [Posting(docId, Positions(doc.tokens, t))]
        else idx.postings[t],
      idx.docStats[docId := StatOf(doc)],
      map t | t in idx.termDocFreq.Keys + terms ::
        if t in terms then DocFreq(idx, t) + 1 else idx.termDocFreq[t],
      idx.docTable[docId := doc],
      idx.n + 1)
  }

  /**
   * The index invariant kept from an empty index: postings and frequencies
   * share their keys, each frequency is its posting list's length, stats
   * describe the stored documents and every posting names a stored document.
   */
  ghost predicate Valid(idx: InvertedIndex) {
    && idx.postings.Keys == idx.termDocFreq.Keys
    && (forall t :: t in idx.termDocFreq ==> idx.termDocFreq[t] == |idx.postings[t]|)
    && idx.docStats.Keys == idx.docTable.Keys
    && (forall id :: id in idx.docStats ==> idx.docStats[id] == StatOf(idx.docTable[id]))
    && (forall t, i :: t in idx.postings && 0 <= i < |idx.postings[t]| ==>
          idx.postings[t][i].docId in idx.docTable)
    && |idx.docTable| <= idx.n
  }

  lemma EmptyValid()
    ensures Valid(Empty())
  {
  }

  lemma AddDocumentFreqs(idx: InvertedIndex, docId: string, doc: Document)
    requires Valid(idx)
    ensures var r := AddDocument(idx, docId, doc);
      && r.postings.Keys == r.termDocFreq.Keys
      && forall t :: t in r.termDocFreq ==> r.termDocFreq[t] == |r.postings[t]|
  {
    var r := AddDocument(idx, docId, doc);
    forall t | t in r.termDocFreq
      ensures r.termDocFreq[t] == |r.postings[t]|
    {
      assert PostingsOf(r, t) == r.postings[t];
      assert DocFreq(r, t) == r.termDocFreq[t];
    }
  }

  lemma AddDocumentPostingIds(idx: InvertedIndex, docId: string, doc: Document, t: string, i: int)
    requires Valid(idx)
    requires var r := AddDocument(idx, docId, doc); t in r.postings && 0 <= i < |r.postings[t]|
    ensures var r := AddDocument(idx, docId, doc); r.postings[t][i].docId in r.docTable
  {
    var r := AddDocument(idx, docId, doc);
    assert PostingsOf(r, t) == r.postings[t];
    if t in doc.tokens && i == |r.postings[t]| - 1 {
      assert r.postings[t][i].docId == docId;
    } else {
      assert r.postings[t][i] == PostingsOf(idx, t)[i];
    }
  }

  lemma AddDocumentValid(idx: InvertedIndex, docId: string, doc: Document)
    requires Valid(idx)
    ensures Valid(AddDocument(idx, docId, doc))
  {
    var r := AddDocument(idx, docId, doc);
    AddDocumentFreqs(idx, docId, doc);
    forall t, i | t in r.postings && 0 <= i < |r.postings[t]|
      ensures r.postings[t][i].docId in r.docTable
    {
      AddDocumentPostingIds(idx, docId, doc, t, i);
    }
    assert |r.docTable.Keys| <= |idx.docTable.Keys| + 1;
  }

  /** The index after adding `entries` (doc id, document) in order to an empty index. */
  function Build(entries: seq<(string, Document)>): InvertedIndex
    decreases |entries|
  {
    if entries == [] then Empty()
    else
      var last := entries[|entries| - 1];
      AddDocument(Build(entries[..|entries| - 1]), last.0, last.1)
  }

  lemma {:induction false} BuildValid(entries: seq<(string, Document)>)
    ensures Valid(Build(entries))
    ensures Build(entries).n == |entries|
    decreases |entries|
  {
    if entries == [] {
      EmptyValid();
    } else {
      var last := entries[|entries| - 1];
      BuildValid(entries[..|entries| - 1]);
      AddDocumentValid(Build(entries[..|entries| - 1]), last.0, last.1);
    }
  }

  /**
   * The posting list a term should have after `entries`: one posting per
   * entry containing the term, in the order the entries were added.
   */
  function PostingsInOrder(entries: seq<(string, Document)>, t: string): seq<Posting>
    decreases |entries|
  {
    if entries == [] then []
    else
      var last := entries[|entries| - 1];
      PostingsInOrder(entries[..|entries| - 1], t)
        + (if t in last.1.tokens then [Posting(last.0, Positions(last.1.tokens, t))] else [])
  }

  /**
   * Posting lists are in insertion order, one entry per document containing
   * the term, and the document frequency is the number of such documents.
   */
  lemma {:induction false} BuildPostings(entries: seq<(string, Document)>, t: string)
    ensures PostingsOf(Build(entries), t) == PostingsInOrder(entries, t)
    ensures DocFreq(Build(entries), t) == |PostingsInOrder(entries, t)|
    decreases |entries|
  {
    if entries != [] {
      var prev, last := entries[..|entries| - 1], entries[|entries| - 1];
      BuildPostings(prev, t);
      assert Build(entries) == AddDocument(Build(prev), last.0, last.1);
      assert PostingsInOrder(entries, t) == PostingsInOrder(prev, t)
        + (if t in last.1.tokens then [Posting(last.0, Positions(last.1.tokens, t))] else []);
    }
  }

  lemma {:induction false} PostingsInOrderLength(entries: seq<(string, Document)>, t: string)
    ensures |PostingsInOrder(entries, t)| <= |entries|
    decreases |entries|
  {
    if entries != [] {
      PostingsInOrderLength(entries[..|entries| - 1], t);
    }
  }

  /** A document adds at most one posting per term, so no document frequency exceeds `N`. */
  lemma BuildDocFreqBound(entries: seq<(string, Document)>, t: string)
    ensures DocFreq(Build(entries), t) <= Build(entries).n
  {
    BuildPostings(entries, t);
    PostingsInOrderLength(entries, t);
    BuildValid(entries);
  }

  /** Doc ids of `entries` are pairwise different. */
  predicate DistinctIds(entries: seq<(string, Document)>) {
    forall i, j :: 0 <= i < j < |entries| ==> entries[i].0 != entries[j].0
  }

  /** The doc ids of `entries`. */
  function IdsOf(entries: seq<(string, Document)>): set<string> {
    set i | 0 <= i < |entries| :: entries[i].0
  }

  /** The table and the stats hold exactly the ids added. */
  lemma {:induction false} BuildKeys(entries: seq<(string, Document)>)
    ensures Build(entries).docTable.Keys == IdsOf(entries)
    ensures Build(entries).docStats.Keys == IdsOf(entries)
    decreases |entries|
  {
    if entries != [] {
      var prefix := entries[..|entries| - 1];
      var last := entries[|entries| - 1];
      BuildKeys(prefix);
      IdsSnoc(entries);
      var b := Build(prefix);
      assert Build(entries) == AddDocument(b, last.0, last.1);
    }
  }

  lemma IdsSnoc(entries: seq<(string, Document)>)
    requires entries != []
    ensures IdsOf(entries) == IdsOf(entries[..|entries| - 1]) + {entries[|entries| - 1].0}
  {
    var prefix := entries[..|entries| - 1];
    forall id | id in IdsOf(entries) ensures id in IdsOf(prefix) + {entries[|entries| - 1].0} {
      var i :| 0 <= i < |entries| && entries[i].0 == id;
      if i < |prefix| { assert prefix[i].0 == id; }
    }
    forall id | id in IdsOf(prefix) ensures id in IdsOf(entries) {
      var i :| 0 <= i < |prefix| && prefix[i].0 == id;
      assert entries[i].0 == id;
    }
  }

  /** A later document under the same id overwrites the table entry: the last one wins. */
  lemma {:induction false} BuildLastWins(entries: seq<(string, Document)>, i: int)
    requires 0 <= i < |entries|
    requires forall j :: i < j < |entries| ==> entries[j].0 != entries[i].0
    ensures entries[i].0 in Build(entries).docTable
    ensures Build(entries).docTable[entries[i].0] == entries[i].1
    ensures entries[i].0 in Build(entries).docStats
    ensures Build(entries).docStats[entries[i].0] == StatOf(entries[i].1)
    decreases |entries|
  {
    if i < |entries| - 1 {
      var prefix := entries[..|entries| - 1];
      BuildLastWins(prefix, i);
    }
  }

  lemma {:induction false} DistinctIdsCount(entries: seq<(string, Document)>)
    requires DistinctIds(entries)
    ensures |IdsOf(entries)| == |entries|
    decreases |entries|
  {
    if entries != [] {
      var prefix := entries[..|entries| - 1];
      DistinctIdsCount(prefix);
      IdsSnoc(entries);
    }
  }

  /** With distinct doc ids, the counter, the table and the stats all agree. */
  lemma BuildDistinctCount(entries: seq<(string, Document)>)
    requires DistinctIds(entries)
    ensures Build(entries).n == |Build(entries).docTable| == |Build(entries).docStats| == |entries|
  {
    BuildValid(entries);
    BuildKeys(entries);
    DistinctIdsCount(entries);
    var b := Build(entries);
    assert |b.docTable| == |b.docTable.Keys|;
    assert |b.docStats| == |b.docStats.Keys|;
  }

  /** The listing positions of the files ending in `.json`, in listing order. */
  function JsonIndices(listing: seq<(string, Document)>): (js: seq<nat>)
    ensures |js| <= |listing|
    ensures forall k :: 0 <= k < |js| ==> js[k] < |listing|
    decreases |listing|
  {
    if listing == [] then []
    else
      var n := |listing| - 1;
      JsonIndices(listing[..n]) + (if EndsWith(listing[n].0, ".json") then [n] else [])
  }

  /**
   * `JsonIndices` lists exactly the positions of the `.json` files, each once,
   * in increasing order.
   */
  lemma {:induction false} JsonIndicesExact(listing: seq<(string, Document)>)
    ensures forall k :: 0 <= k < |JsonIndices(listing)| ==> EndsWith(listing[JsonIndices(listing)[k]].0, ".json")
    ensures forall k, m :: 0 <= k < m < |JsonIndices(listing)| ==> JsonIndices(listing)[k] < JsonIndices(listing)[m]
    ensures forall j :: 0 <= j < |listing| && EndsWith(listing[j].0, ".json") ==> j in JsonIndices(listing)
    decreases |listing|
  {
    if listing != [] {
      var n := |listing| - 1;
      var init := listing[..n];
      JsonIndicesExact(init);
      var js, jn := JsonIndices(init), if EndsWith(listing[n].0, ".json") then [n] else [];
      assert JsonIndices(listing) == js + jn;
      assert forall j :: 0 <= j < n ==> init[j] == listing[j];
      forall j | 0 <= j < |listing| && EndsWith(listing[j].0, ".json")
        ensures j in js + jn
      {
        if j < n {
          assert j in js;
        } else {
          assert jn == [j];
        }
      }
    }
  }

  /** `Indexer.build`: files ending in `.json`, each under its name with `.json` removed. */
  function JsonEntries(listing: seq<(string, Document)>): (e: seq<(string, Document)>)
    ensures |e| <= |listing|
    ensures forall x :: x in e <==> exists j :: 0 <= j < |listing| && EntryOf(listing[j], x)
    decreases |listing|
  {
    if listing == [] then []
    else
      var init, last := listing[..|listing| - 1], listing[|listing| - 1];
      assert forall j :: 0 <= j < |init| ==> init[j] == listing[j];
      JsonEntries(init) + JsonEntry(last)
  }

  /** The entry a single file contributes: one if its name ends in `.json`, none otherwise. */
  function JsonEntry(f: (string, Document)): (next: seq<(string, Document)>)
    ensures |next| <= 1
    ensures forall x :: x in next <==> EntryOf(f, x)
  {
    if EndsWith(f.0, ".json") then [(RemoveAll(f.0, ".json"), f.1)] else []
  }

  /**
   * The entries come one per `.json` file, in listing order: the `k`-th entry
   * is made from the `k`-th file whose name ends in `.json`.
   */
  lemma {:induction false} JsonEntriesOrder(listing: seq<(string, Document)>)
    ensures |JsonEntries(listing)| == |JsonIndices(listing)|
    ensures forall k :: 0 <= k < |JsonEntries(listing)| ==>
      EntryOf(listing[JsonIndices(listing)[k]], JsonEntries(listing)[k])
    decreases |listing|
  {
    if listing != [] {
      var n := |listing| - 1;
      var init, last := listing[..n], listing[n];
      JsonEntriesOrder(init);
      var e, js := JsonEntries(init), JsonIndices(init);
      var jn := if EndsWith(last.0, ".json") then [n] else [];
      assert JsonEntries(listing) == e + JsonEntry(last);
      assert JsonIndices(listing) == js + jn;
      assert forall k :: 0 <= k < |js| ==> init[js[k]] == listing[js[k]];
      EntriesAppend(listing, e, js, JsonEntry(last), jn);
    }
  }

  /** Entries matched position by position to listing indices stay matched when both are extended. */
  lemma EntriesAppend(listing: seq<(string, Document)>, e: seq<(string, Document)>, js: seq<nat>,
                      next: seq<(string, Document)>, jn: seq<nat>)
    requires |e| == |js| && |next| == |jn|
    requires forall k :: 0 <= k < |e| ==> js[k] < |listing| && EntryOf(listing[js[k]], e[k])
    requires forall k :: 0 <= k < |next| ==> jn[k] < |listing| && EntryOf(listing[jn[k]], next[k])
    ensures forall k :: 0 <= k < |e + next| ==> (js + jn)[k] < |listing| && EntryOf(listing[(js + jn)[k]], (e + next)[k])
  {
    forall k | 0 <= k < |e + next|
      ensures (js + jn)[k] < |listing| && EntryOf(listing[(js + jn)[k]], (e + next)[k])
    {
      if k >= |e| {
        assert (js + jn)[k] == jn[k - |e|] && (e + next)[k] == next[k - |e|];
      }
    }
  }

  /** File `f` of the listing yields the entry `x`: it ends in `.json` and `x` is its doc id and document. */
  predicate EntryOf(f: (string, Document), x: (string, Document)) {
    EndsWith(f.0, ".json") && x == (RemoveAll(f.0, ".json"), f.1)
  }

  /** A file `w.json` whose stem `w` has no dot is indexed under `w`. */
  lemma StemDocId(w: string, d: Document)
    requires '.' !in w
    ensures JsonEntries([(w + ".json", d)]) == [(w, d)]
  {
    RemoveSuffix(w, ".json");
    var listing := [(w + ".json", d)];
    assert EndsWith(listing[0].0, ".json") by { assert (w + ".json")[|w|..] == ".json"; }
    assert listing[..0] == [];
  }

  function IndexerBuild(listing: seq<(string, Document)>): (idx: InvertedIndex)
    ensures Valid(idx)
    ensures idx.n == |JsonEntries(listing)| == |JsonIndices(listing)|
    ensures idx.docTable.Keys == IdsOf(JsonEntries(listing))
  {
    JsonEntriesOrder(listing);
    BuildValid(JsonEntries(listing));
    BuildKeys(JsonEntries(listing));
    Build(JsonEntries(listing))
  }

  /**
   * Distinct file names do not guarantee distinct doc ids: `replace` removes
   * every `.json`, so `a.json` and `a.json.json` share the id `a`; two
   * documents are counted while the table keeps one.
   */
  lemma DocIdCollision(d1: Document, d2: Document)
    ensures IndexerBuild([("a.json", d1), ("a.json.json", d2)]).n == 2
    ensures |IndexerBuild([("a.json", d1), ("a.json.json", d2)]).docTable| == 1
  {
    var listing := [("a.json", d1), ("a.json.json", d2)];
    CollidingEntries(d1, d2);
    var entries := JsonEntries(listing);
    TwoEntriesOneId(entries);
    assert IndexerBuild(listing) == Build(entries);
  }

  lemma IdsOfTwo(entries: seq<(string, Document)>)
    requires |entries| == 2 && entries[0].0 == entries[1].0
    ensures IdsOf(entries) == {entries[0].0}
  {
    forall id | id in IdsOf(entries) ensures id == entries[0].0 {
      var i :| 0 <= i < |entries| && entries[i].0 == id;
    }
    assert entries[0].0 in IdsOf(entries);
  }

  lemma TwoEntriesOneId(entries: seq<(string, Document)>)
    requires |entries| == 2 && entries[0].0 == entries[1].0
    ensures Build(entries).n == 2 && |Build(entries).docTable| == 1
  {
    BuildValid(entries);
    BuildKeys(entries);
    IdsOfTwo(entries);
    assert |Build(entries).docTable| == |Build(entries).docTable.Keys|;
  }

  lemma CollidingEntries(d1: Document, d2: Document)
    ensures JsonEntries([("a.json", d1), ("a.json.json", d2)]) == [("a", d1), ("a", d2)]
  {
    var listing := [("a.json", d1), ("a.json.json", d2)];
    JsonIdExamples();
    assert EndsWith("a.json", ".json") && EndsWith("a.json.json", ".json");
    assert listing[..1] == [("a.json", d1)];
    assert listing[..1][..0] == [];
    assert JsonEntries(listing[..1]) == [("a", d1)];
  }

  lemma JsonIdExamples()
    ensures RemoveAll("a.json", ".json") == "a"
    ensures RemoveAll("a.json.json", ".json") == "a"
  {
    assert RemoveAll("", ".json") == "";
    assert ".json"[..5] == ".json" && ".json"[5..] == "";
    assert RemoveAll(".json", ".json") == "";
    assert ".json.json"[..5] == ".json" && ".json.json"[5..] == ".json";
    assert RemoveAll(".json.json", ".json") == "";
    assert "a.json"[..5][0] == 'a' && "a.json"[1..] == ".json";
    assert "a.json.json"[..5][0] == 'a' && "a.json.json"[1..] == ".json.json";
  }
}

=== FILE: ranker.dfy ===
/**
 * BM25 scoring over the inverted index, and the hybrid ranker that mixes a
 * BM25 score with a semantic score.
 *
 * Floating point is modelled by `real`. The natural logarithm is the
 * parameter `ln`, constrained by `IsLog`: it vanishes at 1 and is strictly
 * increasing on the positive reals, which is all the scoring relies on.
 * The average document length sums over a map in no particular order, so
 * the functions here are ghost.
 */
module Ranker {
  import opened Wrappers
  import opened Text
  import opened Indexer

  /** The BM25 parameters `k1` and `b`. */
  datatype Params = Params(k1: real, b: real)

  /** `BM25(index)` uses `k1 = 1.5` and `b = 0.75`. */
  const DefaultParams := Params(1.5, 0.75)

  /** `HybridRanker(bm25, semantic)` weighs BM25 by 0.7. */
  const DefaultAlpha: real := 0.7

  /** Why `score` raises: `doc_table[doc_id]` is missing, or `avgdl` is zero. */
  datatype ScoreError = UnknownDocument | ZeroDivision

  /** What the model needs of `math.log`. */
  ghost predicate IsLog(ln: real -> real) {
    && ln(1.0) == 0.0
    && forall x: real, y: real :: 0.0 < x < y ==> ln(x) < ln(y)
  }

  /** The constraint is satisfiable, so no lemma below holds vacuously. */
  lemma LogExists()
    ensures exists ln :: IsLog(ln)
  {
    var ln := (x: real) => x - 1.0;
    assert IsLog(ln);
  }

  lemma LogSign(ln: real -> real, x: real)
    requires IsLog(ln)
    requires x > 0.0
    ensures ln(x) > 0.0 <==> x > 1.0
    ensures ln(x) == 0.0 <==> x == 1.0
  {
    if x > 1.0 {
      assert ln(1.0) < ln(x);
    } else if x < 1.0 {
      assert ln(x) < ln(1.0);
    }
  }

  /** A BM25 scorer: the index, its parameters, the average document length and `N`. */
  datatype BM25 = BM25(index: InvertedIndex, params: Params, avgdl: real, n: nat)

  /** The sum of the `length` fields of the statistics. */
  ghost function TotalLength(stats: map<string, DocStat>): nat
    decreases |stats|
  {
    if stats == map[] then 0
    else
      var id :| id in stats;
      stats[id].length + TotalLength(stats - {id})
  }

  /** The sum does not depend on which entry is taken first. */
  lemma {:induction false} TotalLengthRemove(stats: map<string, DocStat>, id: string)
    requires id in stats
    ensures TotalLength(stats) == stats[id].length + TotalLength(stats - {id})
    decreases |stats|
  {
    var id' :| id' in stats && TotalLength(stats) == stats[id'].length + TotalLength(stats - {id'});
    if id' != id {
      var rest := stats - {id'};
      TotalLengthRemove(rest, id);
      var both := rest - {id};
      assert stats - {id} - {id'} == both;
      TotalLengthRemove(stats - {id}, id');
    }
  }

  lemma {:induction false} TotalLengthZero(stats: map<string, DocStat>)
    ensures TotalLength(stats) == 0 <==> forall id :: id in stats ==> stats[id].length == 0
    decreases |stats|
  {
    if stats != map[] {
      var id :| id in stats;
      TotalLengthRemove(stats, id);
      TotalLengthZero(stats - {id});
      var rest := stats - {id};
      assert forall other :: other in stats && other != id ==> other in rest && rest[other] == stats[other];
    }
  }

  /**
   * `avgdl`: total length over `max(1, number of documents)`. It is never
   * negative, and it is zero exactly when every document is empty (which
   * includes the empty index).
   */
  ghost function AvgDl(stats: map<string, DocStat>): (a: real)
    ensures a >= 0.0
    ensures a == 0.0 <==> forall id :: id in stats ==> stats[id].length == 0
  {
    TotalLengthZero(stats);
    TotalLength(stats) as real / (if |stats| > 0 then |stats| else 1) as real
  }

  /** `BM25(index, k1, b)`. */
  ghost function NewBM25(index: InvertedIndex, params: Params): (bm: BM25)
    ensures bm.index == index && bm.params == params && bm.n == index.n
    ensures bm.avgdl >= 0.0
    ensures bm.avgdl == 0.0 <==> forall id :: id in index.docStats ==> index.docStats[id].length == 0
  {
    BM25(index, params, AvgDl(index.docStats), index.n)
  }

  /** `idf(term)`, reading an unseen term's frequency as 0. */
  function Idf(bm: BM25, ln: real -> real, t: string): real {
    var df := DocFreq(bm.index, t) as real;
    ln(1.0 + (bm.n as real - df + 0.5) / (df + 0.5))
  }

  /**
   * The logarithm's argument is `(N + 1) / (df + 0.5)`, always positive, so
   * `idf` is defined for every term; it is positive exactly when `df <= N`
   * and never zero.
   */
  lemma IdfSign(bm: BM25, ln: real -> real, t: string)
    requires IsLog(ln)
    ensures Idf(bm, ln, t) > 0.0 <==> DocFreq(bm.index, t) <= bm.n
    ensures Idf(bm, ln, t) != 0.0
  {
    var df := DocFreq(bm.index, t) as real;
    var n := bm.n as real;
    var x := 1.0 + (n - df + 0.5) / (df + 0.5);
    assert x == (n + 1.0) / (df + 0.5);
    assert x > 0.0;
    assert x > 1.0 <==> DocFreq(bm.index, t) <= bm.n;
    assert x != 1.0;
    LogSign(ln, x);
  }

  /** Every term of an index built from an empty one has a positive `idf`. */
  lemma BuiltIdfPositive(entries: seq<(string, Document)>, params: Params, ln: real -> real, t: string)
    requires IsLog(ln)
    ensures Idf(NewBM25(Build(entries), params), ln, t) > 0.0
  {
    BuildDocFreqBound(entries, t);
    IdfSign(NewBM25(Build(entries), params), ln, t);
  }

  /** The length normalisation `k1 * (1 - b + b * len(tokens) / avgdl)`. */
  function LengthNorm(p: Params, docLength: nat, avgdl: real): real
    requires avgdl != 0.0
  {
    p.k1 * (1.0 - p.b + p.b * docLength as real / avgdl)
  }

  /** With the default parameters and a positive `avgdl` the normalisation is positive. */
  lemma DefaultNormPositive(docLength: nat, avgdl: real)
    requires avgdl > 0.0
    ensures LengthNorm(DefaultParams, docLength, avgdl) > 0.0
  {
    assert docLength as real / avgdl >= 0.0;
  }

  /**
   * One term's contribution for term frequency `tf` and normalisation
   * `norm`: `idf * tf * (k1 + 1) / (tf + norm)`, or 0 when the denominator
   * is zero. An absent term contributes nothing.
   */
  function TermWeight(idf: real, tf: nat, k1: real, norm: real): (w: real)
    ensures tf == 0 ==> w == 0.0
    ensures tf as real + norm == 0.0 ==> w == 0.0
  {
    var denom := tf as real + norm;
    if denom != 0.0 then idf * tf as real * (k1 + 1.0) / denom else 0.0
  }

  /** `x / (x + K)` grows with `x` when `K > 0`, strictly when `x` does, and stays below 1. */
  lemma SaturationMonotone(x: real, y: real, k: real)
    requires 0.0 <= x <= y && k > 0.0
    ensures x / (x + k) <= y / (y + k)
    ensures x < y ==> x / (x + k) < y / (y + k)
    ensures y / (y + k) < 1.0
  {
    assert x * (y + k) == x * y + x * k;
    assert y * (x + k) == x * y + y * k;
    MulMonotone(k, x, y);
    DivLeq(x, x + k, y, y + k);
    DivLeq(y, y + k, 1.0, 1.0);
  }

  /** Comparing fractions with positive denominators by cross-multiplying. */
  lemma DivLeq(a: real, b: real, c: real, d: real)
    requires b > 0.0 && d > 0.0
    requires a * d <= c * b
    ensures a / b <= c / d
    ensures a * d < c * b ==> a / b < c / d
  {
    var p, q := a / b, c / d;
    assert p * b == a;
    assert q * d == c;
    assert a * d == p * (b * d);
    assert c * b == q * (b * d);
    CancelPositive(p, q, b * d);
    if a * d < c * b && p >= q {
      MulMonotone(b * d, q, p);
    }
  }

  lemma CancelPositive(p: real, q: real, m: real)
    requires m > 0.0
    requires p * m <= q * m
    ensures p <= q
  {
    if p > q {
      MulMonotone(m, q, p);
    }
  }

  /**
   * With a positive normalisation and a non-negative `idf * (k1 + 1)`, a
   * term's contribution is non-decreasing in its frequency, strictly
   * increasing when `idf * (k1 + 1)` is positive, and stays below
   * `idf * (k1 + 1)`.
   */
  lemma TermWeightMonotone(idf: real, k1: real, norm: real, tf1: nat, tf2: nat)
    requires norm > 0.0 && idf * (k1 + 1.0) >= 0.0
    requires tf1 <= tf2
    ensures 0.0 <= TermWeight(idf, tf1, k1, norm) <= TermWeight(idf, tf2, k1, norm)
    ensures idf * (k1 + 1.0) > 0.0 && tf1 < tf2 ==> TermWeight(idf, tf1, k1, norm) < TermWeight(idf, tf2, k1, norm)
    ensures TermWeight(idf, tf2, k1, norm) <= idf * (k1 + 1.0)
    ensures idf * (k1 + 1.0) > 0.0 ==> TermWeight(idf, tf2, k1, norm) < idf * (k1 + 1.0)
  {
    var c := idf * (k1 + 1.0);
    var x, y := tf1 as real, tf2 as real;
    assert TermWeight(idf, tf1, k1, norm) == c * (x / (x + norm));
    assert TermWeight(idf, tf2, k1, norm) == c * (y / (y + norm));
    SaturationMonotone(x, y, norm);
    assert x / (x + norm) >= 0.0;
    MulMonotone(c, x / (x + norm), y / (y + norm));
    MulMonotone(c, y / (y + norm), 1.0);
  }

  lemma MulMonotone(c: real, a: real, b: real)
    requires c >= 0.0 && a <= b
    ensures c * a <= c * b
    ensures c > 0.0 && a < b ==> c * a < c * b
  {
  }

  /** The sum of the contributions of `query`'s terms, in query order. */
  function TermsSum(bm: BM25, ln: real -> real, query: seq<string>, tokens: seq<string>): real
    requires bm.avgdl != 0.0
    decreases |query|
  {
    if query == [] then 0.0
    else
      var t := query[|query| - 1];
      var w := TermWeight(Idf(bm, ln, t), Count(tokens, t), bm.params.k1,
                          LengthNorm(bm.params, |tokens|, bm.avgdl));
      TermsSum(bm, ln, query[..|query| - 1], tokens) + w
  }

  /**
   * `score(query, doc_id)`. It raises when the document is not in the
   * table, and, for a non-empty query, when `avgdl` is zero; otherwise it is
   * the sum of the query terms' contributions.
   */
  ghost function Score(bm: BM25, ln: real -> real, query: seq<string>, docId: string): (r: Result<real, ScoreError>)
    ensures r == Failure(UnknownDocument) <==> docId !in bm.index.docTable
    ensures r == Failure(ZeroDivision) <==> docId in bm.index.docTable && query != [] && bm.avgdl == 0.0
    ensures query == [] && docId in bm.index.docTable ==> r == Success(0.0)
  {
    if docId !in bm.index.docTable then Failure(UnknownDocument)
    else if query == [] then Success(0.0)
    else if bm.avgdl == 0.0 then Failure(ZeroDivision)
    else Success(TermsSum(bm, ln, query, bm.index.docTable[docId].tokens))
  }

  /** The sum over a concatenation is the sum of the sums: each repetition of a term counts. */
  lemma {:induction false} TermsSumAppend(bm: BM25, ln: real -> real, q1: seq<string>, q2: seq<string>, tokens: seq<string>)
    requires bm.avgdl != 0.0
    ensures TermsSum(bm, ln, q1 + q2, tokens) == TermsSum(bm, ln, q1, tokens) + TermsSum(bm, ln, q2, tokens)
    decreases |q2|
  {
    if q2 == [] {
      assert q1 + q2 == q1;
    } else {
      var q2' := q2[..|q2| - 1];
      assert (q1 + q2)[..|q1 + q2| - 1] == q1 + q2';
      TermsSumAppend(bm, ln, q1, q2', tokens);
    }
  }

  /** Scores are additive over query concatenation, so a repeated query term is counted once per repetition. */
  lemma ScoreAppend(bm: BM25, ln: real -> real, q1: seq<string>, q2: seq<string>, docId: string)
    requires docId in bm.index.docTable && bm.avgdl != 0.0
    ensures Score(bm, ln, q1 + q2, docId).Success?
    ensures Score(bm, ln, q1 + q2, docId).value == Score(bm, ln, q1, docId).value + Score(bm, ln, q2, docId).value
  {
    TermsSumAppend(bm, ln, q1, q2, bm.index.docTable[docId].tokens);
  }

  /** Query terms absent from the document contribute nothing. */
  lemma {:induction false} TermsSumAbsent(bm: BM25, ln: real -> real, query: seq<string>, tokens: seq<string>)
    requires bm.avgdl != 0.0
    requires forall i :: 0 <= i < |query| ==> query[i] !in tokens
    ensures TermsSum(bm, ln, query, tokens) == 0.0
    decreases |query|
  {
    if query != [] {
      CountZero(tokens, query[|query| - 1]);
      TermsSumAbsent(bm, ln, query[..|query| - 1], tokens);
    }
  }

  /** A stored document containing no query term scores 0, unless `avgdl` is zero and the query is not empty. */
  lemma NoMatchScoresZero(bm: BM25, ln: real -> real, query: seq<string>, docId: string)
    requires docId in bm.index.docTable
    requires query == [] || bm.avgdl != 0.0
    requires forall i :: 0 <= i < |query| ==> query[i] !in bm.index.docTable[docId].tokens
    ensures Score(bm, ln, query, docId) == Success(0.0)
  {
    if query != [] {
      TermsSumAbsent(bm, ln, query, bm.index.docTable[docId].tokens);
    }
  }

  /** Among stored documents of one length, a single-term query ranks by the term's frequency. */
  lemma SingleTermRanksByFrequency(bm: BM25, ln: real -> real, t: string, id1: string, id2: string)
    requires IsLog(ln) && bm.params == DefaultParams && bm.avgdl > 0.0
    requires DocFreq(bm.index, t) <= bm.n
    requires id1 in bm.index.docTable && id2 in bm.index.docTable
    requires |bm.index.docTable[id1].tokens| == |bm.index.docTable[id2].tokens|
    requires Count(bm.index.docTable[id1].tokens, t) < Count(bm.index.docTable[id2].tokens, t)
    ensures Score(bm, ln, [t], id1).Success? && Score(bm, ln, [t], id2).Success?
    ensures Score(bm, ln, [t], id1).value < Score(bm, ln, [t], id2).value
  {
    var tokens1, tokens2 := bm.index.docTable[id1].tokens, bm.index.docTable[id2].tokens;
    IdfSign(bm, ln, t);
    DefaultNormPositive(|tokens1|, bm.avgdl);
    var idf := Idf(bm, ln, t);
    assert idf * (DefaultParams.k1 + 1.0) > 0.0;
    var norm := LengthNorm(DefaultParams, |tokens1|, bm.avgdl);
    TermWeightMonotone(idf, DefaultParams.k1, norm, Count(tokens1, t), Count(tokens2, t));
    TermsSumSingle(bm, ln, t, tokens1);
    TermsSumSingle(bm, ln, t, tokens2);
  }

  lemma TermsSumSingle(bm: BM25, ln: real -> real, t: string, tokens: seq<string>)
    requires bm.avgdl != 0.0
    ensures TermsSum(bm, ln, [t], tokens)
         == TermWeight(Idf(bm, ln, t), Count(tokens, t), bm.params.k1, LengthNorm(bm.params, |tokens|, bm.avgdl))
  {
    assert [t][..0] == [];
  }

  /**
   * Documents `[a, b, a]`, `[b, c]` and `[a, a, a]` scored for the query
   * `[a]`: the third ranks above the first, and the second scores 0.
   */
  lemma RankingExample(bm: BM25, ln: real -> real, d1: string, d2: string, d3: string)
    requires IsLog(ln) && bm.params == DefaultParams && bm.avgdl > 0.0
    requires DocFreq(bm.index, "a") <= bm.n
    requires d1 in bm.index.docTable && bm.index.docTable[d1].tokens == ["a", "b", "a"]
    requires d2 in bm.index.docTable && bm.index.docTable[d2].tokens == ["b", "c"]
    requires d3 in bm.index.docTable && bm.index.docTable[d3].tokens == ["a", "a", "a"]
    ensures Score(bm, ln, ["a"], d1).Success? && Score(bm, ln, ["a"], d3).Success?
    ensures Score(bm, ln, ["a"], d3).value > Score(bm, ln, ["a"], d1).value > 0.0
    ensures Score(bm, ln, ["a"], d2) == Success(0.0)
  {
    ExampleCounts();
    SingleTermRanksByFrequency(bm, ln, "a", d1, d3);
    NoMatchScoresZero(bm, ln, ["a"], d2);
    var tokens1 := bm.index.docTable[d1].tokens;
    IdfSign(bm, ln, "a");
    DefaultNormPositive(|tokens1|, bm.avgdl);
    var idf := Idf(bm, ln, "a");
    var norm := LengthNorm(DefaultParams, |tokens1|, bm.avgdl);
    TermWeightMonotone(idf, DefaultParams.k1, norm, 0, Count(tokens1, "a"));
    TermsSumSingle(bm, ln, "a", tokens1);
  }

  lemma ExampleCounts()
    ensures Count(["a", "b", "a"], "a") == 2
    ensures Count(["a", "a", "a"], "a") == 3
    ensures "a" !in ["b", "c"]
  {
    assert ["a", "b", "a"][..2] == ["a", "b"];
    assert ["a", "b"][..1] == ["a"];
    assert ["a", "a", "a"][..2] == ["a", "a"];
    assert ["a", "a"][..1] == ["a"];
    assert ["a"][..0] == [];
  }

  /**
   * `HybridRanker.score`: the BM25 score weighted by `alpha` plus the
   * semantic score of the space-joined query weighted by `1 - alpha`. A
   * failing BM25 score fails the hybrid one before the semantic model runs.
   */
  ghost function HybridScore(bm: BM25, ln: real -> real, semantic: (string, string) -> real, alpha: real,
                             query: seq<string>, docId: string): (r: Result<real, ScoreError>)
    ensures r.Failure? <==> Score(bm, ln, query, docId).Failure?
    ensures r.Failure? ==> r.error == Score(bm, ln, query, docId).error
  {
    match Score(bm, ln, query, docId)
    case Failure(e) => Failure(e)
    case Success(s) => Success(Mix(alpha, s, semantic(Join(query), docId)))
  }

  /** `alpha * bm25_score + (1 - alpha) * semantic_score`. */
  function Mix(alpha: real, s: real, m: real): real {
    alpha * s + (1.0 - alpha) * m
  }

  /**
   * For `0 <= alpha <= 1` the hybrid score lies between the BM25 score and
   * the semantic score; `alpha = 1` gives BM25 alone and `alpha = 0` the
   * semantic score alone.
   */
  lemma HybridBetween(bm: BM25, ln: real -> real, semantic: (string, string) -> real, alpha: real,
                      query: seq<string>, docId: string)
    requires 0.0 <= alpha <= 1.0
    requires Score(bm, ln, query, docId).Success?
    ensures var s, m, h := Score(bm, ln, query, docId).value, semantic(Join(query), docId),
                           HybridScore(bm, ln, semantic, alpha, query, docId).value;
      && (s <= m ==> s <= h <= m)
      && (m <= s ==> m <= h <= s)
      && (alpha == 1.0 ==> h == s)
      && (alpha == 0.0 ==> h == m)
  {
    var s, m := Score(bm, ln, query, docId).value, semantic(Join(query), docId);
    var h := HybridScore(bm, ln, semantic, alpha, query, docId).value;
    assert h == alpha * s + (1.0 - alpha) * m;
    Convex(alpha, s, m, h);
  }

  lemma Convex(alpha: real, s: real, m: real, h: real)
    requires 0.0 <= alpha <= 1.0
    requires h == alpha * s + (1.0 - alpha) * m
    ensures s <= m ==> s <= h <= m
    ensures m <= s ==> m <= h <= s
    ensures alpha == 1.0 ==> h == s
    ensures alpha == 0.0 ==> h == m
  {
    var beta, d := 1.0 - alpha, m - s;
    var up, down := beta * d, alpha * d;
    assert h == s + up && h == m - down;
    if 0.0 <= d {
      MulMonotone(beta, 0.0, d);
      MulMonotone(alpha, 0.0, d);
    } else {
      MulMonotone(beta, d, 0.0);
      MulMonotone(alpha, d, 0.0);
    }
    if alpha == 1.0 {
      assert up == 0.0 * d;
    }
    if alpha == 0.0 {
      assert down == 0.0 * d;
    }
  }

  /**
   * With the same semantic score, the document with the higher BM25 score
   * has the higher hybrid score whenever BM25 carries weight.
   */
  lemma HybridPreservesBm25Order(bm: BM25, ln: real -> real, semantic: (string, string) -> real, alpha: real,
                                 query: seq<string>, id1: string, id2: string)
    requires 0.0 < alpha
    requires Score(bm, ln, query, id1).Success? && Score(bm, ln, query, id2).Success?
    requires Score(bm, ln, query, id1).value < Score(bm, ln, query, id2).value
    requires semantic(Join(query), id1) == semantic(Join(query), id2)
    ensures HybridScore(bm, ln, semantic, alpha, query, id1).value < HybridScore(bm, ln, semantic, alpha, query, id2).value
  {
    var s1, s2 := Score(bm, ln, query, id1).value, Score(bm, ln, query, id2).value;
    var m := semantic(Join(query), id1);
    assert HybridScore(bm, ln, semantic, alpha, query, id1).value == Mix(alpha, s1, m);
    assert HybridScore(bm, ln, semantic, alpha, query, id2).value == Mix(alpha, s2, m);
    MixMonotone(alpha, s1, s2, m);
  }

  /**
   * Under the default weight 0.7 a document with the lower BM25 score
   * overtakes another exactly when its semantic advantage is more than 7/3
   * of its BM25 deficit.
   */
  lemma DefaultHybridOrder(bm: BM25, ln: real -> real, semantic: (string, string) -> real,
                           query: seq<string>, id1: string, id2: string)
    requires Score(bm, ln, query, id1).Success? && Score(bm, ln, query, id2).Success?
    ensures var s1, s2 := Score(bm, ln, query, id1).value, Score(bm, ln, query, id2).value;
      var m1, m2 := semantic(Join(query), id1), semantic(Join(query), id2);
      HybridScore(bm, ln, semantic, DefaultAlpha, query, id1).value
        < HybridScore(bm, ln, semantic, DefaultAlpha, query, id2).value
      <==> 3.0 * (m1 - m2) < 7.0 * (s2 - s1)
  {
  }

  lemma MixMonotone(alpha: real, s1: real, s2: real, m: real)
    requires 0.0 < alpha && s1 < s2
    ensures Mix(alpha, s1, m) < Mix(alpha, s2, m)
  {
    var d, c := s2 - s1, (1.0 - alpha) * m;
    var p1, p2, pd := alpha * s1, alpha * s2, alpha * d;
    assert Mix(alpha, s1, m) == p1 + c;
    assert Mix(alpha, s2, m) == p2 + c;
    assert p2 == p1 + pd;
    MulPositive(alpha, d);
  }

  lemma MulPositive(a: real, b: real)
    requires 0.0 < a && 0.0 < b
    ensures 0.0 < a * b
  {
  }
}

=== FILE: robots.dfy ===
/**
 * Per-domain politeness: the robots-file parser, the prefix-based `allowed`
 * test and the crawl-delay wait over an abstract clock.
 */
module Robots {
  import opened Wrappers
  import opened Text

  /**
   * The state of one domain's robots policy. `rules` are the disallowed path
   * prefixes in the order first seen (the keys of a dictionary, so no
   * repeats); `lastAccess` maps a network location to its last access time.
   */
  datatype Policy = Policy(rules: seq<string>, crawlDelay: nat, lastAccess: map<string, real>)

  const DefaultCrawlDelay: nat := 1

  /** The policy of a freshly constructed robots object, before any robots file is read. */
  function FreshPolicy(): (p: Policy)
    ensures p.crawlDelay == 1 && p.rules == [] && p.lastAccess == map[]
    ensures forall path :: PathAllowed(p.rules, path)
  {
    Policy([], DefaultCrawlDelay, map[])
  }

  predicate IsDelayLine(line: string) {
    StartsWithIgnoringCase(line, "crawl-delay:")
  }

  predicate IsDisallowLine(line: string) {
    !IsDelayLine(line) && StartsWithIgnoringCase(line, "disallow:")
  }

  /** The length of the leading run of decimal digits. */
  function DigitRun(s: string): (n: nat)
    ensures n <= |s|
    ensures forall k :: 0 <= k < n ==> IsDigit(s[k])
    ensures n < |s| ==> !IsDigit(s[n])
  {
    if s == [] || !IsDigit(s[0]) then 0 else 1 + DigitRun(s[1..])
  }

  /** The index of the first decimal digit, or `|s|` when there is none. */
  function FirstDigit(s: string): (i: nat)
    ensures i <= |s|
    ensures forall k :: 0 <= k < i ==> !IsDigit(s[k])
    ensures i < |s| ==> IsDigit(s[i])
  {
    if s == [] || IsDigit(s[0]) then 0 else 1 + FirstDigit(s[1..])
  }

  /** The value of a string of decimal digits. */
  function DigitsValue(s: string): nat
    requires forall k :: 0 <= k < |s| ==> IsDigit(s[k])
    decreases |s|
  {
    if s == [] then 0
    else
      assert IsDigit(s[|s| - 1]);
      10 * DigitsValue(s[..|s| - 1]) + (s[|s| - 1] as int - '0' as int)
  }

  /**
   * `int(re.findall(r'\d+', line)[0])`: the value of the first run of digits,
   * or `None` where the list is empty and indexing it raises.
   */
  function FirstNumber(line: string): (r: Option<nat>)
    ensures r.None? <==> forall k :: 0 <= k < |line| ==> !IsDigit(line[k])
    ensures r.Some? ==> exists i, n :: FirstRun(line, i, n) && r.value == DigitsValue(line[i..i + n])
  {
    var i := FirstDigit(line);
    if i == |line| then None
    else
      var n := DigitRun(line[i..]);
      assert FirstRun(line, i, n) by {
        forall k | i <= k < i + n ensures IsDigit(line[k]) { assert line[k] == line[i..][k - i]; }
        if i + n < |line| { assert line[i + n] == line[i..][n]; }
      }
      Some(DigitsValue(line[i..i + n]))
  }

  /**
   * `line[i..i + n]` is the first match of `\d+`: a maximal, non-empty run of
   * digits with no digit before it.
   */
  predicate FirstRun(line: string, i: int, n: int) {
    && 0 <= i && 0 < n && i + n <= |line|
    && (forall k :: 0 <= k < i ==> !IsDigit(line[k]))
    && (forall k :: i <= k < i + n ==> IsDigit(line[k]))
    && (i + n == |line| || !IsDigit(line[i + n]))
  }

  /** The first match is unique, so `FirstNumber`'s value is determined by its contract. */
  lemma FirstRunUnique(line: string, i: int, n: int, j: int, m: int)
    requires FirstRun(line, i, n) && FirstRun(line, j, m)
    ensures i == j && n == m
  {
    assert IsDigit(line[i]) && IsDigit(line[j]);
    assert i + n == |line| || !IsDigit(line[i + n]);
    assert j + m == |line| || !IsDigit(line[j + m]);
  }

  /** The path of a `disallow:` line: the text after the first colon, whitespace-stripped. */
  function DisallowPath(line: string): string
    requires IsDisallowLine(line)
  {
    assert line[8] == ':';
    Strip(AfterFirst(line, ':'))
  }

  /** `rules[path] = True` on a dictionary: a new key goes last, a known key stays put. */
  function AddRule(rules: seq<string>, path: string): (r: seq<string>)
    ensures NoDuplicates(rules) ==> NoDuplicates(r)
    ensures path in r && forall x :: x in r <==> x in rules || x == path
    ensures |rules| <= |r| && r[..|rules|] == rules
  {
    if path in rules then rules else rules + [path]
  }

  /** The outcome of parsing: the policy reached, and whether every line was processed. */
  datatype Parsed = Parsed(policy: Policy, complete: bool)

  /**
   * `_parse` over the lines of a robots file. A `crawl-delay:` line without
   * digits raises; the exception ends the parse with what was set so far.
   */
  function ParseLines(p: Policy, lines: seq<string>): (r: Parsed)
    ensures r.policy.lastAccess == p.lastAccess
    ensures |p.rules| <= |r.policy.rules| && r.policy.rules[..|p.rules|] == p.rules
    ensures NoDuplicates(p.rules) ==> NoDuplicates(r.policy.rules)
    decreases |lines|
  {
    if lines == [] then Parsed(p, true)
    else
      var line := lines[0];
      if IsDelayLine(line) then
        match FirstNumber(line)
        case None => Parsed(p, false)
        case Some(d) => ParseLines(p.(crawlDelay := d), lines[1..])
      else if IsDisallowLine(line) then
        var q := p.(rules := AddRule(p.rules, DisallowPath(line)));
        var r := ParseLines(q, lines[1..]);
        PrefixOfPrefix(p.rules, q.rules, r.policy.rules);
        r
      else ParseLines(p, lines[1..])
  }

  lemma PrefixOfPrefix<T>(a: seq<T>, b: seq<T>, c: seq<T>)
    requires |a| <= |b| && b[..|a|] == a
    requires |b| <= |c| && c[..|b|] == b
    ensures |a| <= |c| && c[..|a|] == a
  {
    assert c[..|a|] == c[..|b|][..|a|];
  }

  /** `_parse(text)`. */
  function Parse(p: Policy, text: string): (r: Parsed)
    ensures r.policy.lastAccess == p.lastAccess
    ensures !r.complete <==> SomeBadDelayLine(SplitLines(text))
    ensures r.complete ==> r.policy.crawlDelay == LastDelay(SplitLines(text), p.crawlDelay)
    ensures r.complete ==> forall x :: x in r.policy.rules <==> x in p.rules || x in DisallowPaths(SplitLines(text))
  {
    ParseFacts(p, SplitLines(text));
    ParseLines(p, SplitLines(text))
  }

  /** Some line is a `crawl-delay:` line without digits. */
  predicate SomeBadDelayLine(lines: seq<string>) {
    exists i :: 0 <= i < |lines| && BadDelayLine(lines[i])
  }

  lemma ParseFacts(p: Policy, lines: seq<string>)
    ensures !ParseLines(p, lines).complete <==> SomeBadDelayLine(lines)
    ensures ParseLines(p, lines).complete ==> ParseLines(p, lines).policy.crawlDelay == LastDelay(lines, p.crawlDelay)
    ensures ParseLines(p, lines).complete ==>
      forall x :: x in ParseLines(p, lines).policy.rules <==> x in p.rules || x in DisallowPaths(lines)
  {
    ParseAbortsIff(p, lines);
    if ParseLines(p, lines).complete {
      ParseDelay(p, lines);
      ParseRules(p, lines);
    }
  }

  /** Parsing `a + b` is parsing `a`, then, if nothing raised, parsing `b` from there. */
  lemma {:induction false} ParseAppend(p: Policy, a: seq<string>, b: seq<string>)
    ensures ParseLines(p, a + b) ==
      (var r := ParseLines(p, a); if r.complete then ParseLines(r.policy, b) else r)
    decreases |a|
  {
    if a != [] {
      assert (a + b)[0] == a[0];
      assert (a + b)[1..] == a[1..] + b;
      var line := a[0];
      if IsDelayLine(line) {
        if FirstNumber(line).Some? {
          ParseAppend(p.(crawlDelay := FirstNumber(line).value), a[1..], b);
        }
      } else if IsDisallowLine(line) {
        ParseAppend(p.(rules := AddRule(p.rules, DisallowPath(line))), a[1..], b);
      } else {
        ParseAppend(p, a[1..], b);
      }
    } else {
      assert a + b == b;
    }
  }

  /** A `crawl-delay:` line whose number cannot be read. */
  predicate BadDelayLine(line: string) {
    IsDelayLine(line) && FirstNumber(line).None?
  }

  /** The parse stops early exactly when some line is a `crawl-delay:` line without digits. */
  lemma {:induction false} ParseAbortsIff(p: Policy, lines: seq<string>)
    ensures !ParseLines(p, lines).complete <==> exists i :: 0 <= i < |lines| && BadDelayLine(lines[i])
    decreases |lines|
  {
    if lines != [] {
      var line := lines[0];
      var q := if IsDelayLine(line) && FirstNumber(line).Some? then p.(crawlDelay := FirstNumber(line).value)
        else if IsDisallowLine(line) then p.(rules := AddRule(p.rules, DisallowPath(line)))
        else p;
      ParseAbortsIff(q, lines[1..]);
      if exists i :: 0 <= i < |lines[1..]| && BadDelayLine(lines[1..][i]) {
        var i :| 0 <= i < |lines[1..]| && BadDelayLine(lines[1..][i]);
        assert BadDelayLine(lines[i + 1]);
      }
      if exists i :: 0 <= i < |lines| && BadDelayLine(lines[i]) {
        var i :| 0 <= i < |lines| && BadDelayLine(lines[i]);
        if i > 0 {
          assert BadDelayLine(lines[1..][i - 1]);
        }
      }
    }
  }

  /**
   * The delay a complete parse ends with: the number on the last
   * `crawl-delay:` line, or the starting delay when there is none.
   */
  function LastDelay(lines: seq<string>, d: nat): nat
    decreases |lines|
  {
    if lines == [] then d
    else
      var line := lines[|lines| - 1];
      if IsDelayLine(line) && FirstNumber(line).Some? then FirstNumber(line).value
      else LastDelay(lines[..|lines| - 1], d)
  }

  /** The last `crawl-delay:` line wins. */
  lemma {:induction false} ParseDelay(p: Policy, lines: seq<string>)
    requires ParseLines(p, lines).complete
    ensures ParseLines(p, lines).policy.crawlDelay == LastDelay(lines, p.crawlDelay)
    decreases |lines|
  {
    if lines != [] {
      var prefix, line := lines[..|lines| - 1], lines[|lines| - 1];
      assert lines == prefix + [line];
      ParseAppend(p, prefix, [line]);
      ParseDelay(p, prefix);
    }
  }

  /** The disallow paths of `lines`, in order. */
  function DisallowPaths(lines: seq<string>): seq<string>
    decreases |lines|
  {
    if lines == [] then []
    else
      var line := lines[|lines| - 1];
      DisallowPaths(lines[..|lines| - 1]) + (if IsDisallowLine(line) then [DisallowPath(line)] else [])
  }

  /**
   * After a complete parse the rules are the earlier rules plus the path of
   * every `disallow:` line, kept in their original case.
   */
  lemma {:induction false} ParseRules(p: Policy, lines: seq<string>)
    requires ParseLines(p, lines).complete
    ensures forall x :: x in ParseLines(p, lines).policy.rules <==> x in p.rules || x in DisallowPaths(lines)
    decreases |lines|
  {
    if lines != [] {
      var prefix, line := lines[..|lines| - 1], lines[|lines| - 1];
      assert lines == prefix + [line];
      ParseAppend(p, prefix, [line]);
      ParseRules(p, prefix);
      var q := ParseLines(p, prefix).policy;
      assert [line][1..] == [];
    }
  }

  /** `allowed` as a property: no stored rule is a prefix of the path. */
  predicate PathAllowed(rules: seq<string>, path: string) {
    forall i :: 0 <= i < |rules| ==> !StartsWith(path, rules[i])
  }

  /** `allowed(url)` on the URL's path: scans the rules and refuses at the first prefix match. */
  method Allowed(p: Policy, path: string) returns (ok: bool)
    ensures ok <==> PathAllowed(p.rules, path)
  {
    var i := 0;
    while i < |p.rules|
      invariant 0 <= i <= |p.rules|
      invariant forall k :: 0 <= k < i ==> !StartsWith(path, p.rules[k])
    {
      if StartsWith(path, p.rules[i]) {
        return false;
      }
      i := i + 1;
    }
    return true;
  }

  /** An empty `Disallow:` line stores the empty rule, which every path starts with. */
  lemma EmptyDisallowBlocksAll(p: Policy, path: string)
    ensures ParseLines(p, ["Disallow:"]).complete
    ensures !PathAllowed(ParseLines(p, ["Disallow:"]).policy.rules, path)
  {
    EmptyDisallowLine();
    ParseOneDisallowLine(p, "Disallow:");
    var q := p.(rules := AddRule(p.rules, ""));
    var k :| 0 <= k < |q.rules| && q.rules[k] == "";
    assert StartsWith(path, q.rules[k]);
  }

  lemma ParseOneDisallowLine(p: Policy, line: string)
    requires IsDisallowLine(line)
    ensures ParseLines(p, [line]) == Parsed(p.(rules := AddRule(p.rules, DisallowPath(line))), true)
  {
    assert [line][1..] == [];
  }

  lemma EmptyDisallowLine()
    ensures IsDisallowLine("Disallow:") && DisallowPath("Disallow:") == ""
  {
    var line := "Disallow:";
    assert !IsDelayLine(line) by { assert line[0] != 'c'; }
    assert StartsWithIgnoringCase(line, "disallow:");
    assert AfterFirst(line, ':') == "" by {
      assert line[8] == ':' && ':' !in line[..8];
    }
  }

  /** The delay is the integer before any decimal point: `Crawl-Delay: 1.5` waits 1. */
  lemma FractionalDelayTruncates(p: Policy)
    ensures ParseLines(p, ["Crawl-Delay: 1.5"]) == Parsed(p.(crawlDelay := 1), true)
  {
    FractionIsDelayLine();
    FirstNumberOfFraction();
    ParseOneDelayLine(p, "Crawl-Delay: 1.5", 1);
  }

  lemma FractionIsDelayLine()
    ensures IsDelayLine("Crawl-Delay: 1.5")
  {
  }

  lemma ParseOneDelayLine(p: Policy, line: string, d: nat)
    requires IsDelayLine(line) && FirstNumber(line) == Some(d)
    ensures ParseLines(p, [line]) == Parsed(p.(crawlDelay := d), true)
  {
    assert [line][1..] == [];
  }

  lemma FirstNumberOfFraction()
    ensures FirstNumber("Crawl-Delay: 1.5") == Some(1)
  {
    var line := "Crawl-Delay: 1.5";
    FractionDigitAt13();
    FractionDigitRun();
    OneDigitValue(line, 13);
  }

  lemma OneDigitValue(s: string, i: nat)
    requires i < |s| && IsDigit(s[i])
    ensures DigitsValue(s[i..i + 1]) == s[i] as int - '0' as int
  {
    assert s[i..i + 1][..0] == [];
  }

  lemma FractionDigitAt13()
    ensures FirstDigit("Crawl-Delay: 1.5") == 13
  {
    FirstDigitAt("Crawl-Delay: 1.5", 13);
  }

  lemma FractionDigitRun()
    ensures DigitRun("Crawl-Delay: 1.5"[13..]) == 1
  {
    assert "Crawl-Delay: 1.5"[13..] == "1.5";
    assert "1.5"[1..] == ".5";
  }

  lemma FirstDigitAt(s: string, i: nat)
    requires i < |s| && IsDigit(s[i])
    requires forall k :: 0 <= k < i ==> !IsDigit(s[k])
    ensures FirstDigit(s) == i
  {
  }

  function LastAccess(p: Policy, netloc: string): real {
    if netloc in p.lastAccess then p.lastAccess[netloc] else 0.0
  }

  /** `max(0, crawl_delay - (now - last))`. */
  function WaitTime(p: Policy, netloc: string, now: real): (w: real)
    ensures w >= 0.0
    ensures w == 0.0 <==> now - LastAccess(p, netloc) >= p.crawlDelay as real
    ensures w > 0.0 ==> now + w == LastAccess(p, netloc) + p.crawlDelay as real
  {
    var w := p.crawlDelay as real - (now - LastAccess(p, netloc));
    if w > 0.0 then w else 0.0
  }

  /**
   * `wait(url)` for the URL's network location: the time slept, computed at
   * clock reading `now`, and the policy recording `resumed`, the clock
   * reading after the sleep, as that location's access time.
   */
  function Wait(p: Policy, netloc: string, now: real, resumed: real): (r: (real, Policy))
    ensures r.0 == WaitTime(p, netloc, now)
    ensures LastAccess(r.1, netloc) == resumed
    ensures forall other :: other != netloc ==> LastAccess(r.1, other) == LastAccess(p, other)
    ensures r.1.rules == p.rules && r.1.crawlDelay == p.crawlDelay
  {
    (WaitTime(p, netloc, now), p.(lastAccess := p.lastAccess[netloc := resumed]))
  }

  /**
   * Two consecutive waits for the same location, on a clock that does not
   * run backwards and sleeps that last at least as long as asked, record
   * access times at least the crawl delay apart.
   */
  lemma ConsecutiveWaits(p: Policy, netloc: string, now1: real, resumed1: real, now2: real, resumed2: real)
    requires resumed1 >= now1 + WaitTime(p, netloc, now1)
    requires now2 >= resumed1
    requires resumed2 >= now2 + WaitTime(Wait(p, netloc, now1, resumed1).1, netloc, now2)
    ensures resumed2 - resumed1 >= p.crawlDelay as real
  {
    var p1 := Wait(p, netloc, now1, resumed1).1;
    assert LastAccess(p1, netloc) == resumed1;
  }
}

=== FILE: search.dfy ===
/**
 * The `/search` endpoint: tokenise the query, keep the documents whose URL
 * contains the requested site, score each with BM25 or the hybrid ranker,
 * sort the `(score, doc_id)` pairs in reverse, keep the first `topK` and
 * turn each into a hit with a snippet and highlights.
 */
module Search {
  import opened Wrappers
  import opened Text
  import opened Indexer
  import Ranker

  /** The request body; `dateRange` is accepted and never read. */
  datatype Request = Request(query: string, topK: int, useSemantic: bool, site: Option<string>, dateRange: Option<string>)

  /** A request with only a query: ten hits, hybrid ranking, no site filter. */
  function DefaultRequest(query: string): Request {
    Request(query, 10, true, None, None)
  }

  datatype Hit = Hit(title: string, url: string, snippet: string, score: real, highlights: seq<string>)

  /** The `(score, doc_id)` pair collected for a document. */
  datatype Candidate = Candidate(score: real, docId: string)

  const SnippetLength: nat := 300

  /** `query.lower().split()`: lower-case words. */
  function QueryTokens(query: string): (ts: seq<string>)
    ensures forall i :: 0 <= i < |ts| ==> IsWord(ts[i]) && IsLower(ts[i])
  {
    var lowered := Lower(query);
    LowerIsLower(query);
    Split(lowered)
  }

  /** Lower-case words joined by spaces tokenise back to themselves. */
  lemma QueryTokensJoin(ws: seq<string>)
    requires forall i :: 0 <= i < |ws| ==> IsWord(ws[i]) && IsLower(ws[i])
    ensures QueryTokens(Join(ws)) == ws
  {
    LowerJoin(ws);
    SplitJoin(ws);
  }

  /**
   * The tokens are exactly the words of the lower-cased query: `QueryTokens`
   * gives `ws` when the lower-cased query is `ws` with whitespace runs
   * before, between and after them, and only then.
   */
  lemma QueryTokensWords(query: string, ws: seq<string>)
    requires forall i :: 0 <= i < |ws| ==> IsWord(ws[i])
    ensures QueryTokens(query) == ws <==> exists pads :: Separators(pads, |ws|) && Spread(pads, ws) == Lower(query)
  {
    SplitSpreadIff(Lower(query), ws);
  }

  /** A `site` of `None` or `""` filters nothing; otherwise the URL must contain it. */
  predicate PassesSite(site: Option<string>, url: string) {
    site.None? || site.value == "" || Contains(url, site.value)
  }

  /** The ids of the stored documents that pass the site filter. */
  function Filtered(docTable: map<string, Document>, site: Option<string>): (ids: set<string>)
    ensures forall id :: id in ids <==> id in docTable && PassesSite(site, docTable[id].url)
  {
    set id | id in docTable && PassesSite(site, docTable[id].url)
  }

  /**
   * A site string that contains another filters at least as much: every
   * document passing `site = t` passes `site = s`, and any site filters no
   * more than no site at all.
   */
  lemma FilterNarrows(docTable: map<string, Document>, s: string, t: string)
    requires Contains(t, s)
    ensures Filtered(docTable, Some(t)) <= Filtered(docTable, Some(s)) <= Filtered(docTable, None)
    ensures Filtered(docTable, None) == docTable.Keys
  {
    forall id | id in Filtered(docTable, Some(t))
      ensures id in Filtered(docTable, Some(s))
    {
      if t == "" {
        assert |s| == 0;
      } else {
        ContainsTransitive(docTable[id].url, t, s);
      }
    }
  }

  /** `body[:300]`. */
  function Snippet(body: string): (r: string)
    ensures |r| == if |body| < SnippetLength then |body| else SnippetLength
    ensures StartsWith(body, r)
  {
    if |body| <= SnippetLength then body else body[..SnippetLength]
  }

  /** The query tokens that occur among the document's tokens, in query order, repeats kept. */
  function Highlights(queryTokens: seq<string>, docTokens: seq<string>): (h: seq<string>)
    ensures forall t :: t in h <==> t in queryTokens && t in docTokens
    ensures |h| <= |queryTokens|
    decreases |queryTokens|
  {
    if queryTokens == [] then []
    else
      var last := queryTokens[|queryTokens| - 1];
      var front := queryTokens[..|queryTokens| - 1];
      assert queryTokens == front + [last];
      Highlights(front, docTokens) + (if last in docTokens then [last] else [])
  }

  /** A highlighted token appears as often as in the query; any other token not at all. */
  lemma {:induction false} HighlightsCount(queryTokens: seq<string>, docTokens: seq<string>, t: string)
    ensures Count(Highlights(queryTokens, docTokens), t) == if t in docTokens then Count(queryTokens, t) else 0
    decreases |queryTokens|
  {
    if queryTokens != [] {
      var last := queryTokens[|queryTokens| - 1];
      var front := queryTokens[..|queryTokens| - 1];
      HighlightsCount(front, docTokens, t);
      CountAppend(Highlights(front, docTokens), if last in docTokens then [last] else [], t);
      assert [last][..0] == [];
    }
  }

  /** Highlighting a concatenated query highlights each part in turn: the query order is kept. */
  lemma {:induction false} HighlightsAppend(q1: seq<string>, q2: seq<string>, docTokens: seq<string>)
    ensures Highlights(q1 + q2, docTokens) == Highlights(q1, docTokens) + Highlights(q2, docTokens)
    decreases |q2|
  {
    if q2 == [] {
      assert q1 + q2 == q1;
    } else {
      var q2' := q2[..|q2| - 1];
      assert (q1 + q2)[..|q1 + q2| - 1] == q1 + q2';
      HighlightsAppend(q1, q2', docTokens);
    }
  }

  /** The hit for a stored document. */
  function MakeHit(doc: Document, score: real, queryTokens: seq<string>): Hit {
    Hit(doc.title, doc.url, Snippet(doc.body), score, Highlights(queryTokens, doc.tokens))
  }

  /** Python's ordering of strings: lexicographic by code point, a prefix first. */
  predicate StrLeq(a: string, b: string)
    decreases |a|
  {
    a == [] || (b != [] && (a[0] < b[0] || (a[0] == b[0] && StrLeq(a[1..], b[1..]))))
  }

  lemma {:induction false} StrLeqTotal(a: string, b: string)
    ensures StrLeq(a, b) || StrLeq(b, a)
    decreases |a|
  {
    if a != [] && b != [] && a[0] == b[0] {
      StrLeqTotal(a[1..], b[1..]);
    }
  }

  lemma {:induction false} StrLeqAntisymmetric(a: string, b: string)
    requires StrLeq(a, b) && StrLeq(b, a)
    ensures a == b
    decreases |a|
  {
    if a != [] {
      StrLeqAntisymmetric(a[1..], b[1..]);
      assert a == [a[0]] + a[1..];
      assert b == [b[0]] + b[1..];
    }
  }

  lemma {:induction false} StrLeqTransitive(a: string, b: string, c: string)
    requires StrLeq(a, b) && StrLeq(b, c)
    ensures StrLeq(a, c)
    decreases |a|
  {
    if a != [] && a[0] == b[0] && b[0] == c[0] {
      StrLeqTransitive(a[1..], b[1..], c[1..]);
    }
  }

  /** Python's tuple ordering on `(score, doc_id)`. */
  predicate CandLeq(x: Candidate, y: Candidate) {
    x.score < y.score || (x.score == y.score && StrLeq(x.docId, y.docId))
  }

  lemma CandLeqTotal(x: Candidate, y: Candidate)
    ensures CandLeq(x, y) || CandLeq(y, x)
  {
    StrLeqTotal(x.docId, y.docId);
  }

  lemma CandLeqAntisymmetric(x: Candidate, y: Candidate)
    requires CandLeq(x, y) && CandLeq(y, x)
    ensures x == y
  {
    StrLeqAntisymmetric(x.docId, y.docId);
  }

  lemma CandLeqTransitive(x: Candidate, y: Candidate, z: Candidate)
    requires CandLeq(x, y) && CandLeq(y, z)
    ensures CandLeq(x, z)
  {
    if x.score == y.score == z.score {
      StrLeqTransitive(x.docId, y.docId, z.docId);
    }
  }

  /** `list.sort(reverse=True)` order: each element is above every later one. */
  predicate SortedDesc(s: seq<Candidate>) {
    forall i, j :: 0 <= i < j < |s| ==> CandLeq(s[j], s[i]) && s[j] != s[i]
  }

  /** Inserts `x` into a descending sequence that does not contain it. */
  function Insert(x: Candidate, s: seq<Candidate>): (r: seq<Candidate>)
    requires SortedDesc(s) && x !in s
    ensures SortedDesc(r)
    ensures multiset(r) == multiset(s) + multiset{x}
    decreases |s|
  {
    if s == [] then [x]
    else if CandLeq(s[0], x) then
      InsertFront(x, s);
      [x] + s
    else
      var t := Insert(x, s[1..]);
      CandLeqTotal(s[0], x);
      assert s == [s[0]] + s[1..];
      InsertBehind(s[0], x, s[1..], t);
      [s[0]] + t
  }

  lemma InsertFront(x: Candidate, s: seq<Candidate>)
    requires SortedDesc(s) && x !in s && s != [] && CandLeq(s[0], x)
    ensures SortedDesc([x] + s)
  {
    forall j | 0 < j < |s|
      ensures CandLeq(s[j], x)
    {
      CandLeqTransitive(s[j], s[0], x);
    }
    assert s[0] != x;
  }

  lemma InsertBehind(a: Candidate, x: Candidate, rest: seq<Candidate>, t: seq<Candidate>)
    requires SortedDesc([a] + rest) && SortedDesc(t)
    requires CandLeq(x, a) && x != a
    requires multiset(t) == multiset(rest) + multiset{x}
    ensures SortedDesc([a] + t)
  {
    forall j | 0 <= j < |t|
      ensures CandLeq(t[j], a) && t[j] != a
    {
      assert t[j] in multiset(rest) + multiset{x};
      if t[j] == x {
        assert CandLeq(t[j], a) && t[j] != a;
      } else {
        assert t[j] in multiset(rest);
        var k :| 0 <= k < |rest| && rest[k] == t[j];
        assert ([a] + rest)[k + 1] == t[j] && ([a] + rest)[0] == a;
        assert CandLeq(t[j], a) && t[j] != a;
      }
    }
  }

  /** `sorted(cs, reverse=True)` of candidates without repeats, by insertion. */
  function Sort(cs: seq<Candidate>): (r: seq<Candidate>)
    requires NoDuplicates(cs)
    ensures SortedDesc(r)
    ensures multiset(r) == multiset(cs)
    decreases |cs|
  {
    if cs == [] then []
    else
      var front := cs[..|cs| - 1];
      var last := cs[|cs| - 1];
      assert cs == front + [last];
      var sorted := Sort(front);
      assert last !in multiset(front);
      Insert(last, sorted)
  }

  /**
   * A strictly descending order of a multiset is unique, so `Sort` is the
   * result of `sort(reverse=True)` whatever the input order.
   */
  lemma {:induction false} SortedDescUnique(a: seq<Candidate>, b: seq<Candidate>)
    requires SortedDesc(a) && SortedDesc(b) && multiset(a) == multiset(b)
    ensures a == b
    decreases |a|
  {
    assert |a| == |multiset(a)| == |multiset(b)| == |b|;
    if a != [] {
      SortedHeadsMeet(a, b);
      assert a == [a[0]] + a[1..] && b == [b[0]] + b[1..];
      assert multiset(a[1..]) == multiset(b[1..]) by {
        assert multiset(a) == multiset{a[0]} + multiset(a[1..]);
        assert multiset(b) == multiset{b[0]} + multiset(b[1..]);
        assert multiset(a[1..]) == multiset(a) - multiset{a[0]};
        assert multiset(b[1..]) == multiset(b) - multiset{b[0]};
      }
      SortedDescTail(a);
      SortedDescTail(b);
      SortedDescUnique(a[1..], b[1..]);
    }
  }

  /** Two strictly descending orders of one multiset start with the same candidate. */
  lemma SortedHeadsMeet(a: seq<Candidate>, b: seq<Candidate>)
    requires SortedDesc(a) && SortedDesc(b) && multiset(a) == multiset(b) && a != []
    ensures b != [] && a[0] == b[0]
  {
    assert a[0] in multiset(b);
    assert b[0] in multiset(a);
    var j :| 0 <= j < |b| && b[j] == a[0];
    var i :| 0 <= i < |a| && a[i] == b[0];
    assert CandLeq(a[0], b[0]) by { if j > 0 { assert CandLeq(b[j], b[0]); } else { StrLeqTotal(b[0].docId, b[0].docId); } }
    assert CandLeq(b[0], a[0]) by { if i > 0 { assert CandLeq(a[i], a[0]); } else { StrLeqTotal(a[0].docId, a[0].docId); } }
    CandLeqAntisymmetric(a[0], b[0]);
  }

  lemma SortedDescTail(s: seq<Candidate>)
    requires SortedDesc(s) && s != []
    ensures SortedDesc(s[1..])
  {
    assert forall k :: 0 <= k < |s[1..]| ==> s[1..][k] == s[k + 1];
  }

  /** The length of `s[:k]` for a list of length `n`, negative `k` counting from the end. */
  function SliceLength(n: nat, k: int): (m: nat)
    ensures m <= n
    ensures k >= 0 ==> m == if k < n then k else n
    ensures k < 0 ==> m == if n + k > 0 then n + k else 0
  {
    if k >= 0 then (if k < n then k else n)
    else if n + k > 0 then n + k else 0
  }

  /** The scorer the request selects: hybrid when `useSemantic`, BM25 otherwise. */
  function Scorer<E>(req: Request, bm25: (seq<string>, string) -> Result<real, E>,
                     hybrid: (seq<string>, string) -> Result<real, E>): (seq<string>, string) -> Result<real, E>
  {
    if req.useSemantic then hybrid else bm25
  }

  /**
   * `search(req)` over the document table. `bm25` and `hybrid` are the two
   * rankers' `score` methods; a `Failure` is the exception one raises, which
   * ends the request. Returns the hits and, alongside, the ids they were made
   * from.
   */
  method Search<E>(req: Request, docTable: map<string, Document>,
                   bm25: (seq<string>, string) -> Result<real, E>,
                   hybrid: (seq<string>, string) -> Result<real, E>)
    returns (r: Result<seq<Hit>, E>, selected: seq<string>)
    ensures var q, score, ids := QueryTokens(req.query), Scorer(req, bm25, hybrid), Filtered(docTable, req.site);
      && (r.Failure? <==> exists id :: id in ids && score(q, id).Failure?)
      && (r.Failure? ==> exists id :: id in ids && score(q, id) == Failure(r.error))
      && (r.Success? ==>
            && |selected| == |r.value| == SliceLength(|ids|, req.topK)
            && NoDuplicates(selected)
            && (forall i :: 0 <= i < |selected| ==>
                  && selected[i] in ids
                  && score(q, selected[i]).Success?
                  && r.value[i] == MakeHit(docTable[selected[i]], score(q, selected[i]).value, q))
            && (forall i, j :: 0 <= i < j < |selected| ==>
                  CandLeq(Candidate(r.value[j].score, selected[j]), Candidate(r.value[i].score, selected[i])))
            && (forall id :: id in ids ==> score(q, id).Success?)
            && (forall id, i :: id in ids && id !in selected && 0 <= i < |selected| ==>
                  CandLeq(Candidate(score(q, id).value, id), Candidate(r.value[i].score, selected[i]))))
  {
    var q := QueryTokens(req.query);
    var score := Scorer(req, bm25, hybrid);
    ghost var ids := Filtered(docTable, req.site);
    var cands, err := ScoreFiltered(req.site, docTable, score, q);
    if err.Some? {
      r, selected := Failure(err.value), [];
      return;
    }
    CandidatesCover(cands, ids, score, q);
    var sorted := Sort(cands);
    assert |sorted| == |multiset(sorted)| == |multiset(cands)| == |cands|;
    var top := sorted[..SliceLength(|sorted|, req.topK)];
    SelectedProperties(cands, sorted, top, ids, score, q);
    selected := seq(|top|, i requires 0 <= i < |top| => top[i].docId);
    var hits := seq(|top|, i requires 0 <= i < |top| => MakeHit(docTable[top[i].docId], top[i].score, q));
    HitsFromTop(top, selected, hits, ids, score, q, docTable);
    r := Success(hits);
  }

  /**
   * The scan over the document table: a candidate per site-filtered
   * document, or the error of the first scoring that raised.
   */
  method ScoreFiltered<E>(site: Option<string>, docTable: map<string, Document>,
                          score: (seq<string>, string) -> Result<real, E>, q: seq<string>)
    returns (cands: seq<Candidate>, err: Option<E>)
    ensures err.Some? ==> exists id :: id in Filtered(docTable, site) && score(q, id) == Failure(err.value)
    ensures err.None? ==>
      && (forall c :: c in cands ==> c.docId in Filtered(docTable, site) && score(q, c.docId) == Success(c.score))
      && (forall id :: id in Filtered(docTable, site) ==> exists c :: c in cands && c.docId == id)
      && (forall i, j :: 0 <= i < j < |cands| ==> cands[i].docId != cands[j].docId)
  {
    ghost var ids := Filtered(docTable, site);
    var remaining := docTable.Keys;
    cands, err := [], None;
    while remaining != {}
      invariant remaining <= docTable.Keys
      invariant forall c :: c in cands ==> c.docId in ids && c.docId !in remaining && score(q, c.docId) == Success(c.score)
      invariant forall id :: id in ids && id !in remaining ==> exists c :: c in cands && c.docId == id
      invariant forall i, j :: 0 <= i < j < |cands| ==> cands[i].docId != cands[j].docId
      decreases |remaining|
    {
      var id :| id in remaining;
      remaining := remaining - {id};
      if PassesSite(site, docTable[id].url) {
        match score(q, id)
        case Failure(e) =>
          err := Some(e);
          return;
        case Success(s) =>
          cands := cands + [Candidate(s, id)];
      }
    }
  }

  /** The hits built from the selected candidates carry the promised order and maximality. */
  lemma HitsFromTop<E>(top: seq<Candidate>, selected: seq<string>, hits: seq<Hit>, ids: set<string>,
                       score: (seq<string>, string) -> Result<real, E>, q: seq<string>,
                       docTable: map<string, Document>)
    requires ids <= docTable.Keys
    requires forall i :: 0 <= i < |top| ==> top[i].docId in ids && score(q, top[i].docId) == Success(top[i].score)
    requires forall i, j :: 0 <= i < j < |top| ==> top[i].docId != top[j].docId
    requires forall i, j :: 0 <= i < j < |top| ==> CandLeq(top[j], top[i])
    requires forall id, i :: id in ids && 0 <= i < |top| && (forall k :: 0 <= k < |top| ==> top[k].docId != id) ==>
               score(q, id).Success? && CandLeq(Candidate(score(q, id).value, id), top[i])
    requires forall id :: id in ids ==> score(q, id).Success?
    requires |selected| == |hits| == |top|
    requires forall i :: 0 <= i < |top| ==> selected[i] == top[i].docId
    requires forall i :: 0 <= i < |top| ==> hits[i] == MakeHit(docTable[top[i].docId], top[i].score, q)
    ensures NoDuplicates(selected)
    ensures forall i :: 0 <= i < |selected| ==>
              && selected[i] in ids
              && score(q, selected[i]).Success?
              && hits[i] == MakeHit(docTable[selected[i]], score(q, selected[i]).value, q)
    ensures forall i, j :: 0 <= i < j < |selected| ==>
              CandLeq(Candidate(hits[j].score, selected[j]), Candidate(hits[i].score, selected[i]))
    ensures forall id :: id in ids ==> score(q, id).Success?
    ensures forall id, i :: id in ids && id !in selected && 0 <= i < |selected| ==>
              CandLeq(Candidate(score(q, id).value, id), Candidate(hits[i].score, selected[i]))
  {
    forall i | 0 <= i < |top|
      ensures Candidate(hits[i].score, selected[i]) == top[i]
    {
    }
    forall id, i | id in ids && id !in selected && 0 <= i < |selected|
      ensures CandLeq(Candidate(score(q, id).value, id), Candidate(hits[i].score, selected[i]))
    {
      forall k | 0 <= k < |top|
        ensures top[k].docId != id
      {
        assert selected[k] == top[k].docId;
      }
    }
  }

  /** After the loop every filtered id has exactly one candidate, which holds its score. */
  lemma CandidatesCover<E>(cands: seq<Candidate>, ids: set<string>,
                           score: (seq<string>, string) -> Result<real, E>, q: seq<string>)
    requires forall c :: c in cands ==> c.docId in ids && score(q, c.docId) == Success(c.score)
    requires forall id :: id in ids ==> exists c :: c in cands && c.docId == id
    requires forall i, j :: 0 <= i < j < |cands| ==> cands[i].docId != cands[j].docId
    ensures NoDuplicates(cands)
    ensures |cands| == |ids|
    ensures forall id :: id in ids ==> score(q, id).Success?
  {
    var cids := seq(|cands|, i requires 0 <= i < |cands| => cands[i].docId);
    assert forall id :: id in ids <==> id in cids by {
      forall id | id in ids ensures id in cids {
        var c :| c in cands && c.docId == id;
        var i :| 0 <= i < |cands| && cands[i] == c;
        assert cids[i] == id;
      }
    }
    DistinctSeqCard(cids, ids);
    forall id | id in ids ensures score(q, id).Success? {
      var c :| c in cands && c.docId == id;
    }
  }

  /** A sequence without repeats has as many elements as its set. */
  lemma {:induction false} DistinctSeqCard(s: seq<string>, ids: set<string>)
    requires forall i, j :: 0 <= i < j < |s| ==> s[i] != s[j]
    requires forall x :: x in ids <==> x in s
    ensures |s| == |ids|
    decreases |s|
  {
    if s != [] {
      var front := s[..|s| - 1];
      var last := s[|s| - 1];
      assert last !in front;
      forall x ensures x in ids - {last} <==> x in front {
        if x in s && x != last {
          var i :| 0 <= i < |s| && s[i] == x;
          assert front[i] == x;
        }
      }
      DistinctSeqCard(front, ids - {last});
    }
  }

  /**
   * The first `SliceLength` candidates of the sorted sequence: distinct ids,
   * descending, each above every candidate left out.
   */
  lemma SelectedProperties<E>(cands: seq<Candidate>, sorted: seq<Candidate>, top: seq<Candidate>, ids: set<string>,
                              score: (seq<string>, string) -> Result<real, E>, q: seq<string>)
    requires forall c :: c in cands ==> c.docId in ids && score(q, c.docId) == Success(c.score)
    requires forall i, j :: 0 <= i < j < |cands| ==> cands[i].docId != cands[j].docId
    requires forall id :: id in ids ==> exists c :: c in cands && c.docId == id
    requires SortedDesc(sorted) && multiset(sorted) == multiset(cands)
    requires |top| <= |sorted| && top == sorted[..|top|]
    ensures forall i :: 0 <= i < |top| ==> top[i].docId in ids && score(q, top[i].docId) == Success(top[i].score)
    ensures forall i, j :: 0 <= i < j < |top| ==> top[i].docId != top[j].docId
    ensures forall i, j :: 0 <= i < j < |top| ==> CandLeq(top[j], top[i])
    ensures forall id, i :: id in ids && 0 <= i < |top| && (forall k :: 0 <= k < |top| ==> top[k].docId != id) ==>
              score(q, id).Success? && CandLeq(Candidate(score(q, id).value, id), top[i])
  {
    SortedMembers(cands, sorted);
    forall i, j | 0 <= i < j < |top|
      ensures top[i].docId != top[j].docId
    {
      assert top[i] == sorted[i] && top[j] == sorted[j];
      SameIdSameCandidate(cands, sorted[i], sorted[j]);
    }
    TopMaximal(cands, sorted, top, ids, score, q);
  }

  lemma SortedMembers(cands: seq<Candidate>, sorted: seq<Candidate>)
    requires multiset(sorted) == multiset(cands)
    ensures forall k :: 0 <= k < |sorted| ==> sorted[k] in cands
  {
    forall k | 0 <= k < |sorted|
      ensures sorted[k] in cands
    {
      assert sorted[k] in multiset(sorted);
    }
  }

  /** A filtered document missing from `top` ranks below everything in it. */
  lemma TopMaximal<E>(cands: seq<Candidate>, sorted: seq<Candidate>, top: seq<Candidate>, ids: set<string>,
                      score: (seq<string>, string) -> Result<real, E>, q: seq<string>)
    requires forall c :: c in cands ==> c.docId in ids && score(q, c.docId) == Success(c.score)
    requires forall id :: id in ids ==> exists c :: c in cands && c.docId == id
    requires SortedDesc(sorted) && multiset(sorted) == multiset(cands)
    requires |top| <= |sorted| && top == sorted[..|top|]
    ensures forall id, i :: id in ids && 0 <= i < |top| && (forall k :: 0 <= k < |top| ==> top[k].docId != id) ==>
              score(q, id).Success? && CandLeq(Candidate(score(q, id).value, id), top[i])
  {
    assert forall k :: 0 <= k < |top| ==> sorted[k] == top[k];
    forall id, i | id in ids && 0 <= i < |top| && (forall k :: 0 <= k < |top| ==> top[k].docId != id)
      ensures score(q, id).Success? && CandLeq(Candidate(score(q, id).value, id), top[i])
    {
      var c :| c in cands && c.docId == id;
      assert c in multiset(cands);
      var j :| 0 <= j < |sorted| && sorted[j] == c;
      assert sorted[i] == top[i];
    }
  }

  lemma SameIdSameCandidate(cands: seq<Candidate>, x: Candidate, y: Candidate)
    requires forall i, j :: 0 <= i < j < |cands| ==> cands[i].docId != cands[j].docId
    requires x in cands && y in cands
    ensures x.docId == y.docId ==> x == y
  {
    var i :| 0 <= i < |cands| && cands[i] == x;
    var j :| 0 <= j < |cands| && cands[j] == y;
    assert x.docId == y.docId ==> i == j;
  }

  /** A query-only request asks for the first ten hits of the hybrid ranking over every document. */
  lemma DefaultRequestShape<E>(query: string, n: nat, docTable: map<string, Document>,
                               bm25: (seq<string>, string) -> Result<real, E>,
                               hybrid: (seq<string>, string) -> Result<real, E>)
    ensures Scorer(DefaultRequest(query), bm25, hybrid) == hybrid
    ensures SliceLength(n, DefaultRequest(query).topK) == if n < 10 then n else 10
    ensures Filtered(docTable, DefaultRequest(query).site) == docTable.Keys
  {
  }

  /**
   * With BM25 over the index whose document table is searched, some
   * site-filtered document fails to score, and so the request fails,
   * exactly when the query has a token, some document passes the filter and
   * `avgdl` is zero.
   */
  lemma Bm25RequestFails(bm: Ranker.BM25, ln: real -> real, query: string, site: Option<string>)
    ensures var q, ids := QueryTokens(query), Filtered(bm.index.docTable, site);
      (exists id :: id in ids && Ranker.Score(bm, ln, q, id).Failure?) <==> (q != [] && ids != {} && bm.avgdl == 0.0)
  {
    var q, ids := QueryTokens(query), Filtered(bm.index.docTable, site);
    if q != [] && ids != {} && bm.avgdl == 0.0 {
      var id :| id in ids;
      assert Ranker.Score(bm, ln, q, id) == Failure(Ranker.ZeroDivision);
    }
  }
}

=== FILE: text.dfy ===
/**
 * The Python string operations the search pipeline relies on, over `string`
 * (a sequence of Unicode code points, as Python's `str`).
 */
module Text {

  /** Python's `str.isspace` for a single character. */
  predicate IsSpace(c: char) {
    || c == ' ' || c == '\t' || c == '\n' || c == '\r'
    || c == '\U{000B}' || c == '\U{000C}'
    || ('\U{001C}' <= c <= '\U{001F}')
    || c == '\U{0085}' || c == '\U{00A0}' || c == '\U{1680}'
    || ('\U{2000}' <= c <= '\U{200A}')
    || c == '\U{2028}' || c == '\U{2029}' || c == '\U{202F}' || c == '\U{205F}' || c == '\U{3000}'
  }

  /** Line boundaries recognised by Python's `str.splitlines`. */
  predicate IsLineBreak(c: char) {
    || c == '\n' || c == '\r' || c == '\U{000B}' || c == '\U{000C}'
    || c == '\U{001C}' || c == '\U{001D}' || c == '\U{001E}'
    || c == '\U{0085}' || c == '\U{2028}' || c == '\U{2029}'
  }

  predicate IsDigit(c: char) {
    '0' <= c <= '9'
  }

  /** Lower-casing of ASCII letters; every other character is kept. */
  function LowerChar(c: char): char {
    if 'A' <= c <= 'Z' then (c as int + 32) as char else c
  }

  function Lower(s: string): (r: string)
    ensures |r| == |s|
    ensures forall i :: 0 <= i < |s| ==> r[i] == LowerChar(s[i])
    ensures IsLower(r)
    ensures IsLower(s) ==> r == s
  {
    seq(|s|, i requires 0 <= i < |s| => LowerChar(s[i]))
  }

  /** Python's `s.startswith(p)`. */
  predicate StartsWith<T(==)>(s: seq<T>, p: seq<T>) {
    |p| <= |s| && s[..|p|] == p
  }

  /** Python's `s.endswith(p)`. */
  predicate EndsWith<T(==)>(s: seq<T>, p: seq<T>) {
    |p| <= |s| && s[|s| - |p|..] == p
  }

  /** Python's `s.lower().startswith(p)` for a lower-case ASCII prefix `p`. */
  predicate StartsWithIgnoringCase(s: string, p: string) {
    |p| <= |s| && forall i :: 0 <= i < |p| ==> LowerChar(s[i]) == p[i]
  }

  /** `p` occurs in `s` starting at index `i`. */
  predicate OccursAt(s: string, p: string, i: int) {
    0 <= i <= |s| - |p| && s[i..i + |p|] == p
  }

  /** Python's `p in s` on strings: `p` occurs as a contiguous piece of `s`. */
  predicate Contains(s: string, p: string) {
    exists i | 0 <= i <= |s| - |p| :: OccursAt(s, p, i)
  }

  /** Containment is transitive: a piece of a piece of `s` is a piece of `s`. */
  lemma ContainsTransitive(s: string, t: string, p: string)
    requires Contains(s, t) && Contains(t, p)
    ensures Contains(s, p)
  {
    var i :| 0 <= i <= |s| - |t| && OccursAt(s, t, i);
    var j :| 0 <= j <= |t| - |p| && OccursAt(t, p, j);
    assert |s[i + j..i + j + |p|]| == |p|;
    forall k | 0 <= k < |p|
      ensures s[i + j..i + j + |p|][k] == p[k]
    {
      assert p[k] == t[j + k] == s[i + j + k];
    }
    assert OccursAt(s, p, i + j);
  }

  /** Python's `list.count(x)`: the number of occurrences of `x` in `s`. */
  function Count<T(==)>(s: seq<T>, x: T): nat
    decreases |s|
  {
    if s == [] then 0
    else Count(s[..|s| - 1], x) + (if s[|s| - 1] == x then 1 else 0)
  }

  /** Elements pairwise different. */
  predicate NoDuplicates<T(==)>(s: seq<T>) {
    forall i, j :: 0 <= i < j < |s| ==> s[i] != s[j]
  }

  lemma {:induction false} CountZero<T>(s: seq<T>, x: T)
    ensures Count(s, x) == 0 <==> x !in s
    decreases |s|
  {
    if s != [] {
      CountZero(s[..|s| - 1], x);
      assert s == s[..|s| - 1] + [s[|s| - 1]];
    }
  }

  lemma {:induction false} CountAppend<T>(a: seq<T>, b: seq<T>, x: T)
    ensures Count(a + b, x) == Count(a, x) + Count(b, x)
    decreases |b|
  {
    if b == [] {
      assert a + b == a;
    } else {
      var b' := b[..|b| - 1];
      assert (a + b)[..|a + b| - 1] == a + b';
      CountAppend(a, b', x);
    }
  }

  /** A maximal run of non-whitespace characters, as `str.split()` produces. */
  predicate IsWord(w: string) {
    w != [] && forall k :: 0 <= k < |w| ==> !IsSpace(w[k])
  }

  /** Length of the leading run of non-whitespace characters. */
  function WordLength(s: string): (n: nat)
    ensures n <= |s|
    ensures forall k :: 0 <= k < n ==> !IsSpace(s[k])
    ensures n < |s| ==> IsSpace(s[n])
  {
    if s == [] || IsSpace(s[0]) then 0 else 1 + WordLength(s[1..])
  }

  /** Python's `s.split()` with no separator: the words between whitespace runs. */
  function Split(s: string): (r: seq<string>)
    ensures forall i :: 0 <= i < |r| ==> IsWord(r[i])
    ensures forall i, k :: 0 <= i < |r| && 0 <= k < |r[i]| ==> r[i][k] in s
    decreases |s|
  {
    if s == [] then []
    else if IsSpace(s[0]) then Split(s[1..])
    else
      var n := WordLength(s);
      [s[..n]] + Split(s[n..])
  }

  /** `s` is unchanged by `Lower`. */
  predicate IsLower(s: string) {
    forall k :: 0 <= k < |s| ==> LowerChar(s[k]) == s[k]
  }

  lemma LowerIsLower(s: string)
    ensures IsLower(Lower(s))
  {
  }

  /** Lower-case words joined by spaces are already lower-case text. */
  lemma {:induction false} LowerJoin(ws: seq<string>)
    requires forall i :: 0 <= i < |ws| ==> IsLower(ws[i])
    ensures Lower(Join(ws)) == Join(ws)
  {
    JoinIsLower(ws);
    var j := Join(ws);
    assert forall k :: 0 <= k < |j| ==> Lower(j)[k] == j[k];
  }

  lemma {:induction false} JoinIsLower(ws: seq<string>)
    requires forall i :: 0 <= i < |ws| ==> IsLower(ws[i])
    ensures IsLower(Join(ws))
    decreases |ws|
  {
    if |ws| > 1 {
      JoinIsLower(ws[1..]);
      LowerAppend(ws[0], " ");
      LowerAppend(ws[0] + " ", Join(ws[1..]));
    }
  }

  lemma LowerAppend(a: string, b: string)
    requires IsLower(a) && IsLower(b)
    ensures IsLower(a + b)
  {
    assert forall k :: 0 <= k < |a| ==> (a + b)[k] == a[k];
    assert forall k :: |a| <= k < |a + b| ==> (a + b)[k] == b[k - |a|];
  }

  /** Python's `' '.join(ws)`. */
  function Join(ws: seq<string>): string
    decreases |ws|
  {
    if ws == [] then ""
    else if |ws| == 1 then ws[0]
    else ws[0] + " " + Join(ws[1..])
  }

  lemma {:induction false} WordLengthOfWord(w: string, rest: string)
    requires IsWord(w)
    requires rest == [] || IsSpace(rest[0])
    ensures WordLength(w + rest) == |w|
    decreases |w|
  {
    if |w| > 1 {
      assert (w + rest)[1..] == w[1..] + rest;
      WordLengthOfWord(w[1..], rest);
    } else {
      assert (w + rest)[1..] == rest;
    }
  }

  /** Joining words with single spaces and splitting again gives the words back. */
  lemma {:induction false} SplitJoin(ws: seq<string>)
    requires forall i :: 0 <= i < |ws| ==> IsWord(ws[i])
    ensures Split(Join(ws)) == ws
    decreases |ws|
  {
    if ws == [] {
    } else if |ws| == 1 {
      var w := ws[0];
      WordLengthOfWord(w, "");
      assert w + "" == w;
      assert w[|w|..] == [];
    } else {
      var w, j := ws[0], Join(ws[1..]);
      var s := w + " " + j;
      assert s == w + (" " + j);
      WordLengthOfWord(w, " " + j);
      assert s[..|w|] == w;
      assert s[|w|..] == " " + j;
      assert (" " + j)[1..] == j;
      SplitJoin(ws[1..]);
    }
  }

  /** `s` is made of whitespace only (possibly nothing). */
  predicate IsBlank(s: string) {
    forall k :: 0 <= k < |s| ==> IsSpace(s[k])
  }

  /** `pads[0] + ws[0] + pads[1] + ... + ws[n - 1] + pads[n]`. */
  function Spread(pads: seq<string>, ws: seq<string>): string
    requires |pads| == |ws| + 1
    decreases |ws|
  {
    if ws == [] then pads[0] else pads[0] + ws[0] + Spread(pads[1..], ws[1..])
  }

  /** Whitespace runs around `n` words: blank, and non-empty between two words. */
  predicate Separators(pads: seq<string>, n: nat) {
    && |pads| == n + 1
    && (forall i :: 0 <= i < |pads| ==> IsBlank(pads[i]))
    && (forall i :: 0 < i < n ==> pads[i] != [])
  }

  /**
   * `split()` characterised: it returns the words `ws` exactly when the
   * text is `ws` with whitespace runs before, between and after them.
   */
  lemma SplitSpreadIff(s: string, ws: seq<string>)
    requires forall i :: 0 <= i < |ws| ==> IsWord(ws[i])
    ensures Split(s) == ws <==> exists pads :: Separators(pads, |ws|) && Spread(pads, ws) == s
  {
    if Split(s) == ws {
      var pads := PadsOf(s);
    }
    if pads :| Separators(pads, |ws|) && Spread(pads, ws) == s {
      SplitSpread(pads, ws);
    }
  }

  /** Splitting words spread between whitespace runs gives the words. */
  lemma {:induction false} SplitSpread(pads: seq<string>, ws: seq<string>)
    requires forall i :: 0 <= i < |ws| ==> IsWord(ws[i])
    requires Separators(pads, |ws|)
    ensures Split(Spread(pads, ws)) == ws
    decreases |ws|
  {
    if ws == [] {
      SplitBlank(pads[0], "");
      assert pads[0] + "" == pads[0];
    } else {
      var w, rest := ws[0], Spread(pads[1..], ws[1..]);
      SpreadStart(pads[1..], ws[1..]);
      assert Separators(pads[1..], |ws[1..]|) by {
        assert forall i :: 0 <= i < |pads[1..]| ==> pads[1..][i] == pads[i + 1];
      }
      SplitSpread(pads[1..], ws[1..]);
      WordLengthOfWord(w, rest);
      assert (w + rest)[..|w|] == w && (w + rest)[|w|..] == rest;
      assert Split(w + rest) == [w] + ws[1..];
      SplitBlank(pads[0], w + rest);
      assert Spread(pads, ws) == pads[0] + (w + rest);
    }
  }

  /** Leading whitespace does not change the split. */
  lemma {:induction false} SplitBlank(pad: string, s: string)
    requires IsBlank(pad)
    ensures Split(pad + s) == Split(s)
    decreases |pad|
  {
    if pad != [] {
      assert (pad + s)[1..] == pad[1..] + s;
      SplitBlank(pad[1..], s);
    } else {
      assert pad + s == s;
    }
  }

  /** Spread text begins with its first run, or its first word when that run is empty. */
  lemma SpreadStart(pads: seq<string>, ws: seq<string>)
    requires |pads| == |ws| + 1
    ensures var s := Spread(pads, ws);
      (pads[0] != [] ==> s != [] && s[0] == pads[0][0]) && (pads[0] == [] && ws != [] && ws[0] != [] ==> s != [] && s[0] == ws[0][0])
  {
  }

  /** The whitespace runs of `s` around its words. */
  function PadsOf(s: string): (pads: seq<string>)
    ensures Separators(pads, |Split(s)|) && Spread(pads, Split(s)) == s
    ensures s != [] && IsSpace(s[0]) ==> pads[0] != []
    decreases |s|
  {
    if s == [] then [""]
    else if IsSpace(s[0]) then
      var p := PadsOf(s[1..]);
      PadsSpaceCase(s, p);
      [[s[0]] + p[0]] + p[1..]
    else
      var n := WordLength(s);
      var p := PadsOf(s[n..]);
      var ws := Split(s[n..]);
      assert Split(s) == [s[..n]] + ws;
      assert ws != [] ==> s[n..] != [] && IsSpace(s[n..][0]);
      PadsWordCase(s, s[..n], s[n..], p, ws);
      [""] + p
  }

  lemma PadsSpaceCase(s: string, p: seq<string>)
    requires s != [] && IsSpace(s[0])
    requires Separators(p, |Split(s[1..])|) && Spread(p, Split(s[1..])) == s[1..]
    ensures var pads := [[s[0]] + p[0]] + p[1..];
      Separators(pads, |Split(s)|) && Spread(pads, Split(s)) == s && pads[0] != []
  {
    SpreadFirstPad(p, Split(s[1..]), s[0]);
    WidenFirstPad(p, |Split(s)|, s[0]);
  }

  lemma WidenFirstPad(p: seq<string>, n: nat, c: char)
    requires Separators(p, n) && IsSpace(c)
    ensures Separators([[c] + p[0]] + p[1..], n)
  {
    var pads := [[c] + p[0]] + p[1..];
    forall i | 0 <= i < |pads|
      ensures IsBlank(pads[i]) && (0 < i < n ==> pads[i] != [])
    {
      if i == 0 {
        assert forall k :: 1 <= k < |pads[0]| ==> pads[0][k] == p[0][k - 1];
      } else {
        assert pads[i] == p[i];
      }
    }
  }

  lemma PadsWordCase(s: string, w: string, rest: string, p: seq<string>, ws: seq<string>)
    requires s == w + rest
    requires Separators(p, |ws|) && Spread(p, ws) == rest && (ws != [] ==> p[0] != [])
    ensures Separators([""] + p, |ws| + 1) && Spread([""] + p, [w] + ws) == s
  {
    PrependEmptyPad(p, |ws|);
    PrependWord(p, w, ws);
  }

  /** An empty run in front keeps the runs valid for one more word. */
  lemma PrependEmptyPad(p: seq<string>, n: nat)
    requires Separators(p, n) && (n > 0 ==> p[0] != [])
    ensures Separators([""] + p, n + 1)
  {
    var pads := [""] + p;
    forall i | 0 <= i < |pads|
      ensures IsBlank(pads[i]) && (0 < i < n + 1 ==> pads[i] != [])
    {
      if i > 0 {
        assert pads[i] == p[i - 1];
      }
    }
  }

  lemma PrependWord(p: seq<string>, w: string, ws: seq<string>)
    requires |p| == |ws| + 1
    ensures Spread([""] + p, [w] + ws) == w + Spread(p, ws)
  {
    assert ([""] + p)[1..] == p;
    assert ([w] + ws)[1..] == ws;
    assert ([""] + p)[0] + w == w;
  }

  /** Prefixing the first run prefixes the text. */
  lemma SpreadFirstPad(p: seq<string>, ws: seq<string>, c: char)
    requires |p| == |ws| + 1
    ensures Spread([[c] + p[0]] + p[1..], ws) == [c] + Spread(p, ws)
  {
    var pads := [[c] + p[0]] + p[1..];
    assert pads[1..] == p[1..];
  }

  /** Python's `s.lstrip()` / `s.rstrip()` / `s.strip()` with no argument. */
  function StripLeft(s: string): (r: string)
    ensures |r| <= |s| && r == s[|s| - |r|..]
    ensures r == [] || !IsSpace(r[0])
    ensures forall k :: 0 <= k < |s| - |r| ==> IsSpace(s[k])
    decreases |s|
  {
    if s != [] && IsSpace(s[0]) then StripLeft(s[1..]) else s
  }

  function StripRight(s: string): (r: string)
    ensures |r| <= |s| && r == s[..|r|]
    ensures r == [] || !IsSpace(r[|r| - 1])
    ensures forall k :: |r| <= k < |s| ==> IsSpace(s[k])
    decreases |s|
  {
    if s != [] && IsSpace(s[|s| - 1]) then StripRight(s[..|s| - 1]) else s
  }

  function Strip(s: string): (r: string)
    ensures r == [] || (!IsSpace(r[0]) && !IsSpace(r[|r| - 1]))
    ensures exists i :: Trimmed(s, r, i)
    ensures Contains(s, r)
  {
    var l := StripLeft(s);
    var r := StripRight(l);
    InnerSlice(s, l, r);
    r
  }

  /** `r` sits at `i` in `s` with only whitespace before and after it. */
  predicate Trimmed(s: string, r: string, i: int) {
    && 0 <= i <= |s| - |r|
    && s[i..i + |r|] == r
    && (forall k :: 0 <= k < i ==> IsSpace(s[k]))
    && (forall k :: i + |r| <= k < |s| ==> IsSpace(s[k]))
  }

  /** A whitespace-stripped prefix of a whitespace-stripped suffix of `s` is `s` trimmed. */
  lemma InnerSlice(s: string, l: string, r: string)
    requires |l| <= |s| && l == s[|s| - |l|..]
    requires forall k :: 0 <= k < |s| - |l| ==> IsSpace(s[k])
    requires |r| <= |l| && r == l[..|r|]
    requires forall k :: |r| <= k < |l| ==> IsSpace(l[k])
    ensures Trimmed(s, r, |s| - |l|)
    ensures Contains(s, r)
  {
    var i := |s| - |l|;
    assert s[i..i + |r|] == r;
    assert OccursAt(s, r, i);
    forall k | i + |r| <= k < |s|
      ensures IsSpace(s[k])
    {
      assert s[k] == l[k - i];
    }
  }

  /** Python's `s.split(c, 1)[1]`: the text after the first occurrence of `c`. */
  function AfterFirst(s: string, c: char): (r: string)
    requires c in s
    ensures exists i :: 0 <= i < |s| && s[i] == c && c !in s[..i] && r == s[i + 1..]
    decreases |s|
  {
    if s[0] == c then s[1..]
    else
      var r := AfterFirst(s[1..], c);
      assert forall i :: 0 <= i < |s| - 1 ==> s[1..][..i] == s[1..i + 1];
      r
  }

  /** Python's `s.replace(p, '')`: removes the non-overlapping occurrences of `p`, left to right. */
  function RemoveAll(s: string, p: string): (r: string)
    ensures |r| <= |s|
    ensures p == [] || !Contains(s, p) ==> r == s
    ensures p != [] && Contains(s, p) ==> |r| < |s|
    decreases |s|
  {
    if p == [] || |s| < |p| then s
    else if s[..|p|] == p then
      assert OccursAt(s, p, 0);
      RemoveAll(s[|p|..], p)
    else
      ContainsShift(s, p);
      [s[0]] + RemoveAll(s[1..], p)
  }

  /** An occurrence in `s[1..]` is one in `s`, and every occurrence in `s` but at 0 is one in `s[1..]`. */
  lemma ContainsShift(s: string, p: string)
    requires s != []
    ensures Contains(s[1..], p) ==> Contains(s, p)
    ensures Contains(s, p) && !OccursAt(s, p, 0) ==> Contains(s[1..], p)
  {
    if Contains(s[1..], p) {
      var i :| 0 <= i <= |s[1..]| - |p| && OccursAt(s[1..], p, i);
      assert s[i + 1..i + 1 + |p|] == s[1..][i..i + |p|];
      assert OccursAt(s, p, i + 1);
    }
    if Contains(s, p) && !OccursAt(s, p, 0) {
      var i :| 0 <= i <= |s| - |p| && OccursAt(s, p, i);
      assert s[i..i + |p|] == s[1..][i - 1..i - 1 + |p|];
      assert OccursAt(s[1..], p, i - 1);
    }
  }

  /**
   * Removing `p` from a name ending in `p` gives the stem back when the stem
   * cannot start an occurrence: `replace('.json', '')` on `w + ".json"` is `w`
   * for a `w` without a dot.
   */
  lemma {:induction false} RemoveSuffix(w: string, p: string)
    requires p != [] && p[0] !in w
    ensures RemoveAll(w + p, p) == w
    decreases |w|
  {
    var s := w + p;
    if w == [] {
      assert s[..|p|] == p && s[|p|..] == [];
    } else {
      assert s[0] == w[0] != p[0];
      assert s[1..] == w[1..] + p;
      RemoveSuffix(w[1..], p);
    }
  }

  /** Index of the first line boundary, or `|s|` when there is none. */
  function LineEnd(s: string): (i: nat)
    ensures i <= |s|
    ensures forall k :: 0 <= k < i ==> !IsLineBreak(s[k])
    ensures i < |s| ==> IsLineBreak(s[i])
  {
    if s == [] || IsLineBreak(s[0]) then 0 else 1 + LineEnd(s[1..])
  }

  /** A line as `splitlines` yields it: no line boundary inside. */
  predicate IsLine(l: string) {
    forall k :: 0 <= k < |l| ==> !IsLineBreak(l[k])
  }

  /**
   * Python's `s.splitlines()`: lines separated by any line boundary, `\r\n`
   * counting as one; a final boundary does not start an empty line.
   */
  function SplitLines(s: string): (r: seq<string>)
    ensures forall i :: 0 <= i < |r| ==> IsLine(r[i])
    decreases |s|
  {
    if s == [] then []
    else
      var i := LineEnd(s);
      if i == |s| then [s]
      else
        var next := if s[i] == '\r' && i + 1 < |s| && s[i + 1] == '\n' then i + 2 else i + 1;
        [s[..i]] + SplitLines(s[next..])
  }

  /** Each line followed by `\n`, as a text file stores it. */
  function JoinLines(ls: seq<string>): string
    decreases |ls|
  {
    if ls == [] then "" else ls[0] + "\n" + JoinLines(ls[1..])
  }

  /** Storing lines `\n`-terminated and splitting the text again gives the lines back. */
  lemma {:induction false} SplitLinesJoin(ls: seq<string>)
    requires forall i :: 0 <= i < |ls| ==> IsLine(ls[i])
    ensures SplitLines(JoinLines(ls)) == ls
    decreases |ls|
  {
    if ls != [] {
      var l, rest := ls[0], JoinLines(ls[1..]);
      var s := l + "\n" + rest;
      LineEndOfLine(l, "\n" + rest);
      assert s == l + ("\n" + rest);
      assert s[..|l|] == l;
      assert s[|l| + 1..] == rest;
      SplitLinesJoin(ls[1..]);
    }
  }

  lemma {:induction false} LineEndOfLine(l: string, rest: string)
    requires IsLine(l)
    requires rest != [] && IsLineBreak(rest[0])
    ensures LineEnd(l + rest) == |l|
    decreases |l|
  {
    if l != [] {
      assert (l + rest)[1..] == l[1..] + rest;
      LineEndOfLine(l[1..], rest);
    } else {
      assert l + rest == rest;
    }
  }

  /** A line boundary as it may appear in text: `\r\n`, or one boundary character. */
  predicate IsBreak(sep: string) {
    sep == "\r\n" || (|sep| == 1 && IsLineBreak(sep[0]))
  }

  /**
   * `seps[i]` may follow line `ls[i]`: every line but the last is followed by
   * a boundary, and the last by a boundary or by nothing when it is
   * non-empty. A `\r` ending one line must not meet a `\n` that ends an
   * empty next line, since together they read as one `\r\n`.
   */
  predicate Breaks(ls: seq<string>, seps: seq<string>) {
    && |seps| == |ls|
    && (forall i :: 0 <= i < |ls| ==> IsLine(ls[i]))
    && (forall i :: 0 <= i < |ls| - 1 ==> IsBreak(seps[i]))
    && (|ls| > 0 ==> IsBreak(seps[|ls| - 1]) || (seps[|ls| - 1] == "" && ls[|ls| - 1] != ""))
    && (forall i :: 0 <= i < |ls| - 1 ==> !(seps[i] == "\r" && ls[i + 1] == "" && seps[i + 1] == "\n"))
  }

  /** Each line followed by its own separator. */
  function JoinLinesWith(ls: seq<string>, seps: seq<string>): string
    requires |seps| == |ls|
    decreases |ls|
  {
    if ls == [] then "" else ls[0] + seps[0] + JoinLinesWith(ls[1..], seps[1..])
  }

  /**
   * `splitlines()` gives the lines back whatever boundaries separate them
   * (`\n`, `\r`, `\r\n`, `\v`, `\f`, `\x1c`-`\x1e`, `\x85`, `\u2028`,
   * `\u2029`) and whether or not the last line is terminated.
   */
  lemma {:induction false} SplitLinesJoinWith(ls: seq<string>, seps: seq<string>)
    requires Breaks(ls, seps)
    ensures SplitLines(JoinLinesWith(ls, seps)) == ls
    decreases |ls|
  {
    if ls != [] {
      var l, sep, rest := ls[0], seps[0], JoinLinesWith(ls[1..], seps[1..]);
      assert JoinLinesWith(ls, seps) == l + sep + rest;
      BreaksTail(ls, seps);
      if sep == "" {
        assert !IsBreak(sep);
        assert |ls| == 1 && ls == [l] && l != "";
        assert rest == "" && l + sep + rest == l;
        assert LineEnd(l) == |l|;
      } else {
        if sep == "\r" && rest != [] {
          JoinHead(ls[1..], seps[1..]);
        }
        SplitLinesStep(l, sep, rest);
        SplitLinesJoinWith(ls[1..], seps[1..]);
      }
    }
  }

  /** A line, a boundary and more text: the line comes first, then the lines of the rest. */
  lemma SplitLinesStep(l: string, sep: string, rest: string)
    requires IsLine(l) && IsBreak(sep)
    requires !(sep == "\r" && rest != [] && rest[0] == '\n')
    ensures SplitLines(l + sep + rest) == [l] + SplitLines(rest)
  {
    var s := l + sep + rest;
    assert s == l + (sep + rest);
    LineEndOfLine(l, sep + rest);
    assert s[..|l|] == l;
    if sep == "\r\n" {
      assert s[|l|] == '\r' && s[|l| + 1] == '\n';
      assert s[|l| + 2..] == rest;
    } else {
      assert s[|l|] == sep[0];
      if sep == "\r" && |l| + 1 < |s| {
        assert s[|l| + 1] == rest[0];
      }
      assert s[|l| + 1..] == rest;
    }
  }

  lemma BreaksTail(ls: seq<string>, seps: seq<string>)
    requires Breaks(ls, seps) && ls != []
    ensures Breaks(ls[1..], seps[1..])
  {
    var tl, ts := ls[1..], seps[1..];
    assert forall i :: 0 <= i < |tl| ==> tl[i] == ls[i + 1] && ts[i] == seps[i + 1];
  }

  /** Joined lines start with `\n` only when the first line is empty and ends in `\n`. */
  lemma JoinHead(ls: seq<string>, seps: seq<string>)
    requires Breaks(ls, seps) && ls != []
    ensures JoinLinesWith(ls, seps) != []
    ensures JoinLinesWith(ls, seps)[0] == '\n' ==> ls[0] == "" && seps[0] == "\n"
  {
    var s := JoinLinesWith(ls, seps);
    assert s == ls[0] + (seps[0] + JoinLinesWith(ls[1..], seps[1..]));
    if ls[0] != "" {
      assert s[0] == ls[0][0] && !IsLineBreak(ls[0][0]);
    } else {
      assert IsBreak(seps[0]);
      assert s[0] == seps[0][0];
    }
  }

  /** `"a\r\nb".splitlines()` is `["a", "b"]`: `\r\n` is one boundary and the last line needs none. */
  lemma CrLfExample()
    ensures SplitLines("a\r\nb") == ["a", "b"]
  {
    var ls, seps := ["a", "b"], ["\r\n", ""];
    assert Breaks(ls, seps);
    SplitLinesJoinWith(ls, seps);
    assert JoinLinesWith(ls, seps) == "a\r\nb" by {
      assert JoinLinesWith(ls[1..], seps[1..]) == "b" by {
        assert ls[1..][1..] == [];
      }
    }
  }
}

=== FILE: wrappers.dfy ===
/** Failure-compatible wrappers shared by the pipeline modules. */
module Wrappers {

  /** A value that may be absent (Python's `None`). */
  datatype Option<+T> = None | Some(value: T)

  /** The outcome of an operation that may raise. */
  datatype Result<+T, +E> = Success(value: T) | Failure(error: E)
}
